=== FILE: README.md ===
# n8n manual-run planner and unit-test nodes, modelled in Dafny

This project models two parts of n8n.

The first is the editor's `useRunWorkflow` composable:
- the run planner `consolidateRunDataAndStartNodes`. It walks each branch above the destination node and decides which nodes the backend must execute afresh. It also decides which first runs it may carry forward;
- `runWorkflow`, which builds and submits a run. It checks the `workflowRunning` flag before it starts (see "## Left out" for what that check does not cover);
- `runWorkflowApi`, which submits the request and manages the guard;
- `stopCurrentExecution`, which reconciles a stop request with an execution that may already have finished;
- the three unit-test runners, which pair `unitTestTrigger` nodes with `unitTest` evaluation nodes by test id.

The second is the UnitTest node package:
- the port computation `nodeInputs` and `nodeOutputs`;
- the trigger's conversion of key/value and JSON test data into items;
- the evaluation node's `execute`. It sorts items into an on-fail output and a clean-up output, and returns the outputs that match the node's ports.

JavaScript value semantics are modelled explicitly in module `Js`:
- `undefined` is `Option.None`;
- truthiness is a predicate;
- `??`, `!== false` and `!== undefined` are kept distinct;
- assigning a string to the key `__proto__` of a plain object stores nothing (`Js.ProtoKey`).

The graph accessors `getParentNodes` and `getChildNodes` are function-valued fields of `Workflow.Graph`.

Modules, one per file:
- `Wrappers` (`wrappers.dfy`): `Option` and `Result`.
- `Js` (`js.dfy`): JavaScript values and truthiness.
- `Workflow` (`workflow.dfy`): nodes, run data, pinned data and the graph.
- `Planner` (`planner.dfy`) and `PlannerLemmas` (`planner_lemmas.dfy`): the run planner, a branch-by-branch reference plan, and the planner's properties.
- `Orchestrator` (`orchestrator.dfy`) and `OrchestratorLemmas` (`orchestrator_lemmas.dfy`): `runWorkflowApi`, `runWorkflow`, `stopCurrentExecution`, and properties across several calls.
- `TestPairs` (`test_pairs.dfy`): the three pairing runners.
- `UnitTestPorts` (`unit_test_ports.dfy`): GenericFunctions.ts.
- `UnitTestNode` (`unit_test_node.dfy`): the evaluation node's `execute`.

The model follows the code as written, including these behaviours:
- The unit-test short-circuit of the planner returns an empty run-data map `{}`, not `undefined` (useRunWorkflow.ts:500).
- A node whose first run carries an error becomes a start node even when it is pinned (useRunWorkflow.ts:529-531). Pinned data does not override an errored first run.
- The skip guard is `disabled ?? isUnitTestTrigger` (useRunWorkflow.ts:518). A node with `disabled: false` is therefore probed even when it is a unit-test trigger. Only a node without a `disabled` field falls back to the type test.
- A pinned node with an empty run list passes the carry test at line 541, because an array is truthy. Its empty first-run prefix `[]` is carried (but see `Planner.Consolidate` under "## Left out").
- A failed submission does not reach `runWorkflow`'s caller. `runWorkflow` catches it, shows an error and resolves to `undefined` (useRunWorkflow.ts:480-484).
- A direct parent that is not a node of the workflow makes `workflow.nodes[p].type` throw (useRunWorkflow.ts:514). The planner therefore returns `Result`, and `runWorkflow` catches the error.

## Model

| member | source | states |
|---|---|---|
| Planner.Cutoff | packages/editor-ui/src/composables/useRunWorkflow.ts:525-538 | the walk along a branch stops at the first probed node that has neither runs nor pinned items or whose first run errored; every node before it needs no run |
| Planner.WalkBranch | packages/editor-ui/src/composables/useRunWorkflow.ts:525-544 | a branch yields at most one start node, which is the probe at the cutoff; it carries exactly the probes before the cutoff that have a run list, each mapped to its first run |
| Planner.WalkParents | packages/editor-ui/src/composables/useRunWorkflow.ts:508-545 | the loop over direct parents fails exactly when some direct parent is not a workflow node; otherwise there is at most one start node per parent and every carried entry is that node's first run |
| Planner.Consolidate | packages/editor-ui/src/composables/useRunWorkflow.ts:487-555 | the planner only fails outside the short-circuit, with non-empty run data and an unknown direct parent; carried run data is always a first-run restriction of the stored run data |
| PlannerLemmas.WalkParentsMatchesReference | packages/editor-ui/src/composables/useRunWorkflow.ts:508-545 | the left-to-right loop computes the branch-by-branch reference plan: the start nodes are the branch starts in parent order, and the carried keys are the union of the reused probes |
| PlannerLemmas.ConsistentIsDetermined | packages/editor-ui/src/composables/useRunWorkflow.ts:541-543 | a carried map is determined by its key set: each key maps to the first run of that node |
| PlannerLemmas.ConsolidateMatchesReference | packages/editor-ui/src/composables/useRunWorkflow.ts:501-554 | with non-empty run data and known parents, the planner's answer equals the reference plan, with an empty carried map turned into undefined |
| PlannerLemmas.UnitTestShortCircuit | packages/editor-ui/src/composables/useRunWorkflow.ts:498-500 | a unit-test run with a trigger starts exactly at the trigger with run data `{}`, whatever the run and pinned data |
| PlannerLemmas.NoRunDataNoPlan | packages/editor-ui/src/composables/useRunWorkflow.ts:495-554 | outside the short-circuit, null or empty run data gives no start nodes and undefined run data |
| PlannerLemmas.EmptyRunDataOnlyFromShortCircuit | packages/editor-ui/src/composables/useRunWorkflow.ts:498-551 | the planner returns an empty run-data map if and only if it took the unit-test short-circuit |
| PlannerLemmas.StartNodesNeedRun | packages/editor-ui/src/composables/useRunWorkflow.ts:529-538 | every start node the planner names has no runs and no pinned items, or an errored first run; no start node is also carried, and there are at most as many start nodes as direct parents |
| PlannerLemmas.CarriedRunsAreFirstRuns | packages/editor-ui/src/composables/useRunWorkflow.ts:541-543 | every carried entry is the length-at-most-one prefix of that node's stored runs and is never errored |
| PlannerLemmas.PinnedWithoutRunsIsInert | packages/editor-ui/src/composables/useRunWorkflow.ts:529-543 | a pinned node without a run list is neither a start node nor carried |
| PlannerLemmas.ErroredFirstRunStartsItsBranch | packages/editor-ui/src/composables/useRunWorkflow.ts:529-538 | a probed node whose first run errored starts its branch, even when it is pinned, as long as no earlier probe needs a run |
| PlannerLemmas.SkippedParentContributesNothing | packages/editor-ui/src/composables/useRunWorkflow.ts:513-520 | inserting a skipped direct parent anywhere in the parent list changes neither the start nodes nor the carried data |
| PlannerLemmas.SkipGuardIsNullish | packages/editor-ui/src/composables/useRunWorkflow.ts:513-518 | a parent is skipped if and only if `disabled` is true, or `disabled` is absent and the node is a unit-test trigger |
| Orchestrator.RunWorkflowApi | packages/editor-ui/src/composables/useRunWorkflow.ts:52-86 | without a push connection nothing changes; otherwise the guard ends up raised exactly when the submission succeeded and the backend is not waiting on a webhook while node issues exist; the execution id and webhook wait are recorded; a failed submission rethrows the backend's error, lowers the guard and leaves the rest of the state as it was; `resolveOutstandingIssues` is raised exactly when the backend waits on a webhook while node issues exist; the webhook wait is set only on success |
| Orchestrator.SelectStartNodes | packages/editor-ui/src/composables/useRunWorkflow.ts:270-318 | a planner that names no start node falls back to exactly the destination, which also becomes the executed node; otherwise a trigger with task data adds its children and replaces the run data by the seed; otherwise the planner's start nodes and run data pass through unchanged with no executed node |
| Orchestrator.StartNodeSources | packages/editor-ui/src/composables/useRunWorkflow.ts:367-384 | one record per start node, in order; recorded first-run provenance is preferred over the derived one |
| Orchestrator.Includes | packages/editor-ui/src/composables/useRunWorkflow.ts:343 | `s.includes(sub)` holds if and only if `sub` occurs in `s` at some position |
| Orchestrator.ToLower | packages/editor-ui/src/composables/useRunWorkflow.ts:343 | lower-casing keeps the length and maps every ASCII capital to its small letter |
| Orchestrator.ActiveTriggers | packages/editor-ui/src/composables/useRunWorkflow.ts:342-344 | the trigger list holds exactly the non-disabled nodes whose type mentions "trigger" in any case |
| Orchestrator.ActiveTriggersAppend | packages/editor-ui/src/composables/useRunWorkflow.ts:342-344 | the trigger list is the order-preserving filter: it distributes over concatenation and keeps a single node exactly when it is an active trigger |
| Orchestrator.FirstOfType | packages/editor-ui/src/composables/useRunWorkflow.ts:358-360 | `find` by type returns the first node of that type, and none when there is none |
| Orchestrator.SubmissionNodes | packages/editor-ui/src/composables/useRunWorkflow.ts:350-365 | the only node changed in the submitted copy is the first chat trigger, set to disabled, and when the condition holds that first chat trigger is disabled, and only for a run without destination, not from the chat, with another active trigger |
| Orchestrator.FindSingleWebhookTrigger | packages/editor-ui/src/composables/useRunWorkflow.ts:386-388 | a single-webhook trigger is found if and only if some trigger has a type from the single-webhook list, and it is the first such trigger |
| Orchestrator.RequestRunData | packages/editor-ui/src/composables/useRunWorkflow.ts:404-411 | the request carries the stored run data under partial-execution version 1 and the planner's selection under every other version |
| Orchestrator.RunWorkflow | packages/editor-ui/src/composables/useRunWorkflow.ts:253-485 | a run while `workflowRunning` is active changes nothing; otherwise the guard is held afterwards exactly when the backend accepted the run; a run that submits nothing leaves the state unchanged; a submitted run shows the in-progress execution and has start nodes whenever it has a destination; the run halts for chat input exactly when the destination leads back to a chat trigger that has neither input nor pinned data; it is refused with the trigger's name exactly when a single-webhook trigger exists, the workflow is active and no chat halt came first |
| Orchestrator.Submit | packages/editor-ui/src/composables/useRunWorkflow.ts:400-485 | once past the guards, a request is always sent carrying the node list with the chat trigger adjusted for submission, the pinned data unchanged, the start-node entries with their provenance, and the destination passed through; the in-progress execution is shown; the guard is held afterwards exactly when the backend accepted; a returned execution id becomes the active one |
| Orchestrator.Returned | packages/editor-ui/src/composables/useRunWorkflow.ts:479-483 | `runWorkflow` resolves to a response only for a submitted run, and to undefined otherwise |
| Orchestrator.StopCurrentExecution | packages/editor-ui/src/composables/useRunWorkflow.ts:557-597 | nothing happens without an active execution; otherwise the guard, id and webhook wait are always released; an accepted stop gives no notice; a rejected stop gives the unsaved notice, the finished-before-stop notice with the fetched execution adopted, or the error notice with the reply's reason exactly when the fetched execution is unfinished, and a failed lookup propagates |
| OrchestratorLemmas.UnitTestRunStartsAtTrigger | packages/editor-ui/src/composables/useRunWorkflow.ts:498-500 | the options a unit-test runner passes select exactly the trigger as start node and an empty run-data map |
| OrchestratorLemmas.UnitTestRunRequest | packages/editor-ui/src/composables/useRunWorkflow.ts:405-411 | a submitted unit-test run asks the backend to start at the trigger alone, with empty run data unless the backend plans partial executions |
| OrchestratorLemmas.SecondRunWhileFirstInFlight | packages/editor-ui/src/composables/useRunWorkflow.ts:262-264 | once a run is accepted, any second run returns undefined without submitting |
| OrchestratorLemmas.RejectedRunAllowsRetry | packages/editor-ui/src/composables/useRunWorkflow.ts:67-78 | a run the backend did not accept leaves the guard down, so the next run gets past the single-flight check |
| OrchestratorLemmas.StopAfterSubmitReleasesGuard | packages/editor-ui/src/composables/useRunWorkflow.ts:594-596 | stopping a submitted run with an execution id releases the guard whichever way the stop goes |
| OrchestratorLemmas.RequestStartNodesFollowSelection | packages/editor-ui/src/composables/useRunWorkflow.ts:367-411 | the request carries the submission copy of the nodes, the pinned data, one start-node record with its provenance per selected start node, in order, and the run data the version switch picks |
| TestPairs.FindMatch | packages/editor-ui/src/composables/useRunWorkflow.ts:112-117 | `nodes.find` returns the first enabled node of the partner type whose test id is strictly equal |
| TestPairs.PairAnchors | packages/editor-ui/src/composables/useRunWorkflow.ts:108-127 | the k-th pair is the pair of the k-th anchor that has a partner, in anchor order, once each; anchors without a partner are skipped |
| TestPairs.FoundFromIndexed | packages/editor-ui/src/composables/useRunWorkflow.ts:108-127 | the anchor loop yields each found pair once, in anchor order, and nothing for an anchor without a partner |
| TestPairs.PairAnchorsMembers | packages/editor-ui/src/composables/useRunWorkflow.ts:108-127 | every pair comes from some anchor, and every anchor with a partner contributes its pair |
| TestPairs.RunnableTriggers | packages/editor-ui/src/composables/useRunWorkflow.ts:100-105 | exactly the unit-test triggers with a non-empty test id and `disabled === false` |
| TestPairs.RunnableTriggersAppend | packages/editor-ui/src/composables/useRunWorkflow.ts:100-105 | the trigger list is the order-preserving filter: it distributes over concatenation and keeps a single node exactly when it is a runnable trigger |
| TestPairs.SelectEvaluations | packages/editor-ui/src/composables/useRunWorkflow.ts:197-218 | the filter throws exactly when an enabled evaluation node has no additional fields; otherwise it keeps exactly the enabled evaluation nodes whose run flag asks for a run |
| TestPairs.SelectEvaluationsAppend | packages/editor-ui/src/composables/useRunWorkflow.ts:197-218 | the filter distributes over concatenation of the node list: the first node that throws decides the error, otherwise the kept nodes of both halves appear in list order |
| TestPairs.SelectEvaluationsSingle | packages/editor-ui/src/composables/useRunWorkflow.ts:199-216 | on one node the filter keeps it exactly when it is an enabled evaluation node whose run flag asks for a run, and throws when its additional fields are missing |
| TestPairs.PairOfIsFirstMatch | packages/editor-ui/src/composables/useRunWorkflow.ts:108-126 | an anchor is paired if and only if an enabled partner with the same id exists, and it is paired with the first one |
| TestPairs.UnitTestPairsAreMatchedTriggers | packages/editor-ui/src/composables/useRunWorkflow.ts:94-127 | `runUnitTests` pairs exactly the runnable triggers that have a matching evaluation node: one pair per such trigger, in trigger order |
| TestPairs.EvaluationPairsAreMatchedEvaluations | packages/editor-ui/src/composables/useRunWorkflow.ts:141-240 | the activation and save runners throw exactly when the filter throws; otherwise they emit one pair per selected evaluation node that has a matching trigger, in the order of the selected nodes, and nothing else |
| TestPairs.SaveFlagsDecideSelection | packages/editor-ui/src/composables/useRunWorkflow.ts:197-218 | on save of an inactive workflow a node runs only when `runOnSaveOnInactive` is set and not false; on activation and on save of an active workflow only an explicit false opts out |
| TestPairs.DefaultRunMoments | packages/editor-ui/src/composables/useRunWorkflow.ts:147-215 | without flags a test runs on activation and on save of an active workflow, but not on save of an inactive one |
| UnitTestPorts.NodeInputs | packages/nodes-base/nodes/UnitTest/GenericFunctions.ts:9-29 | two main inputs named pass and fail, in that order, exactly for `booleanInputComparison`; one plain main input otherwise |
| UnitTestPorts.InputsFollowOperation | packages/nodes-base/nodes/UnitTest/GenericFunctions.ts:9-29 | the inputs depend on the operation alone, and a fail input exists exactly for `booleanInputComparison` |
| UnitTestPorts.BranchEnabled | packages/nodes-base/nodes/UnitTest/GenericFunctions.ts:51-57 | the default is used only when the field is undefined; a defined value decides by truthiness |
| UnitTestPorts.NodeOutputs | packages/nodes-base/nodes/UnitTest/GenericFunctions.ts:38-80 | one output per enabled branch and no other; Clean Up is present exactly when enabled and On Fail likewise; Clean Up precedes On Fail; On Fail has category error |
| UnitTestPorts.DefaultOnlyWhenUndefined | packages/nodes-base/nodes/UnitTest/GenericFunctions.ts:55-57 | when both flags are defined the supplied defaults do not matter; when both are undefined the defaults alone decide |
| UnitTestPorts.DefaultOutputsAreOnFail | packages/nodes-base/nodes/UnitTest/GenericFunctions.ts:35-57 | with the module defaults and no flags the outputs are exactly On Fail |
| UnitTestPorts.AssignAllKeys | packages/nodes-base/nodes/UnitTest/GenericFunctions.ts:134-140 | the built object has exactly the keys of the rows, except `__proto__`, which assignment to a plain object never stores |
| UnitTestPorts.AssignAllLastWins | packages/nodes-base/nodes/UnitTest/GenericFunctions.ts:138-140 | each key other than `__proto__` holds the value of the last row naming it; `__proto__` is never a key |
| UnitTestPorts.LaterDuplicateWins | packages/nodes-base/nodes/UnitTest/GenericFunctions.ts:138-140 | of two rows with the same key the later one decides, and no second key appears; a `__proto__` pair adds no key |
| UnitTestPorts.GroupJsonKeys | packages/nodes-base/nodes/UnitTest/GenericFunctions.ts:134-141 | a group with rows yields an object keyed by exactly the rows' keys other than `__proto__` |
| UnitTestPorts.ProtoRowIsIgnored | packages/nodes-base/nodes/UnitTest/GenericFunctions.ts:134-140 | a row keyed `__proto__` leaves the built object as if it were absent, wherever it stands |
| UnitTestPorts.GetReturnNodeJsonFromKeyValue | packages/nodes-base/nodes/UnitTest/GenericFunctions.ts:125-143 | nothing for undefined input; otherwise one item per group in order, `{}` for an empty test run, and otherwise the rows' keys other than `__proto__`, each holding the value of the last row that names it |
| UnitTestPorts.ParseAll | packages/nodes-base/nodes/UnitTest/GenericFunctions.ts:151-160 | succeeds exactly when every row parses, with one item per row in order; otherwise the error of the first row that fails to parse |
| UnitTestPorts.GetReturnNodeJsonFromJson | packages/nodes-base/nodes/UnitTest/GenericFunctions.ts:145-161 | nothing for undefined input; otherwise success exactly when every row parses, with each row's parsed object in order, and otherwise the error of the first row that fails |
| UnitTestPorts.TriggerOutput | packages/nodes-base/nodes/UnitTest/UnitTestTrigger.node.ts:69-73 | the trigger emits all key/value items, then all JSON items, and fails when a JSON row fails to parse |
| UnitTestNode.Tag | packages/nodes-base/nodes/UnitTest/UnitTest.node.ts:113-115 | the output item has the input's keys plus `unitTestPass`, set to "true" or "false" |
| UnitTestNode.TagKeepsFields | packages/nodes-base/nodes/UnitTest/UnitTest.node.ts:113-115 | every other input field keeps its value |
| UnitTestNode.ProcessItemOutcome | packages/nodes-base/nodes/UnitTest/UnitTest.node.ts:85-141 | a missing additionalFields raises; a falsy comparison reaches the failed list tagged false; Test Failed is raised exactly for a falsy comparison with a truthy errorOnFail; clean-up receives the item tagged with its pass value exactly when enabled; other operations never fail; an item fails exactly when additionalFields is missing, a comparison's evaluations cannot be read (raised with that parameter error), or a falsy comparison asks for errorOnFail |
| UnitTestNode.SelectShape | packages/nodes-base/nodes/UnitTest/UnitTest.node.ts:188-201 | only On Fail gives the failed items, only Clean Up gives the clean-up items, both or neither give clean-up then failed |
| UnitTestNode.Execute | packages/nodes-base/nodes/UnitTest/UnitTest.node.ts:60-202 | the run fails exactly when some item fails, reporting the first failing item's index and reason; otherwise it returns the accumulated outputs shaped by the node's ports |
| UnitTestNode.ShapeFollowsFlags | packages/nodes-base/nodes/UnitTest/UnitTest.node.ts:182-201 | the returned outputs follow the node's clean-up and fail flags, read through `nodeOutputs` |
| UnitTestNode.DefaultReturnsFailedOnly | packages/nodes-base/nodes/UnitTest/UnitTest.node.ts:182-196 | a node with no additional fields returns only the failed items |
| UnitTestNode.FailedItemsAreFalsyComparisons | packages/nodes-base/nodes/UnitTest/UnitTest.node.ts:107-116 | the failed output is exactly the items whose comparison evaluated falsy, in input order, each tagged false |
| UnitTestNode.OtherOperationsNeverFail | packages/nodes-base/nodes/UnitTest/UnitTest.node.ts:104-134 | items of any other operation never reach the failed output |
| UnitTestNode.CleanUpKeepsEveryItem | packages/nodes-base/nodes/UnitTest/UnitTest.node.ts:137-141 | with clean-up enabled on every item, the clean-up output is exactly `TagPassed`: every item in order, tagged with whether it passed |

## Left out

- Store, toast, i18n, document-title, `displayForm` and external-hook calls, workflow saving and local storage (useRunWorkflow.ts:266,281-285,445-477). They enter as inputs: the partial-execution version, a flag for a failing external hook, and the backend's reply. The node list of the graph stands for the save-data copy.
- `workflowHelpers.executeData`, `getStartNode`, `getNodeInputData` and `checkIfNodeHasChatParent` are not part of this model. They are function-valued inputs of `Orchestrator.Environment`.
- The chat trigger type and the single-webhook trigger list come from the editor's constants module, which is not part of this model. They are inputs.
- `markExecutionAsStopped` is a store action that is not part of this model. It is modelled as releasing the guard and clearing the active execution id and the webhook wait.
- `stopWaitingForWebhook` is not modelled. It is a single store call with an error toast.
- The fire-and-forget `runWorkflow` calls of the three runners are not modelled. Only the pair lists are; `OrchestratorLemmas` covers what one such call does.
- `Planner.Consolidate`: the final check `isEmpty(newRunData)` (useRunWorkflow.ts:546-550) calls a helper from the editor's `typesUtils` module, which is not part of this model. It is read as "the map has no keys". If that helper also counts a map whose entries are all empty lists as empty, a carried `{P: []}` (the pinned node with an empty run list above) would become `undefined` in the source, while the model keeps `Some({P: []})`.
- `Orchestrator.RunWorkflow` is one atomic step. In the source the `workflowRunning` check (useRunWorkflow.ts:262) and the point where the flag is raised (line 61, inside `runWorkflowApi`, called at line 449) are separated by awaits (lines 282 and 285). The runners fire their calls without awaiting them (lines 132, 180 and 245), so overlapping calls all pass the check. `OrchestratorLemmas.SecondRunWhileFirstInFlight` and `RejectedRunAllowsRetry` cover only a run that starts after an earlier run has returned.
- `Orchestrator.RunWorkflow`: `'destinationNode' in options`, `'triggerNode' in options` and `'nodeData' in options` (useRunWorkflow.ts:302-318) are read as "the option is defined". An option that is present but set to `undefined` is not distinguished.
- `Planner.Consolidate`: run data is a map keyed by node name. A node named `__proto__` would hit the prototype setter at `newRunData[parentNode] = …` (useRunWorkflow.ts:542) and the inherited property at the lookups; the model treats that name like any other.
- `Orchestrator.ToLower`: only ASCII letters are lower-cased. Other Unicode case mappings are not modelled.
- `Js.JsValue` has integer numbers only. `NaN` and fractions are not modelled; both would only matter for truthiness.
- `UnitTestPorts.GetReturnNodeJsonFromKeyValue`: a group whose `testRun` has keys but no `keyValueData`, or is itself missing, throws in the source. It is not representable here: a group either has no keys or has rows.
- `UnitTestPorts.GetReturnNodeJsonFromJson`: `JSON.parse` is the given partial function `parse`. Texts that parse to something other than an object are not modelled.
- `UnitTestNode.Execute`: the `continueOnFail` branch that appends to the array being iterated (UnitTest.node.ts:163-164) is not modelled. The loop can then run without bound.
- `getNodeInputsData`, `triggerWithMatchingIdRan`, the `prepareTestData` stub and the `console.log` call are not modelled. They are debugging code and foreign calls.
- The node descriptions in UnitTestDescriptions.ts are schema data with no behaviour. `generateTestId` in utils.ts depends on `Math.random`. Neither is modelled.

=== FILE: js.dfy ===
/** The part of JavaScript's value semantics the modelled code relies on:
    truthiness, strict equality against `false`/`undefined`, and plain objects
    as string-keyed maps (an absent key reads as `undefined`). */
module Js {
  import opened Wrappers

  /** A JavaScript value as far as the modelled code inspects it. Numbers are
      integers here (NaN is not modelled); objects and arrays are only ever
      tested for truthiness, so they share the one constructor `JsComposite`. */
  datatype JsValue =
    | JsBool(b: bool)
    | JsNumber(n: int)
    | JsString(s: string)
    | JsNull
    | JsComposite

  /** A plain JavaScript object. */
  type Obj = map<string, JsValue>

  /** The one key that assignment to a plain object never stores: `obj["__proto__"] = v`
      runs the setter inherited from `Object.prototype`, which ignores a `v`
      that is not an object. */
  const ProtoKey: string := "__proto__"

  /** JavaScript truthiness of a defined value. */
  predicate Truthy(v: JsValue) {
    match v
    case JsBool(b) => b
    case JsNumber(n) => n != 0
    case JsString(s) => |s| > 0
    case JsNull => false
    case JsComposite => true
  }

  /** Truthiness of a possibly-undefined value: `undefined` is falsy. */
  predicate TruthyOpt(v: Option<JsValue>) {
    v.Some? && Truthy(v.value)
  }

  /** Truthiness of an optional string (`if (s)`): only a non-empty string is truthy. */
  predicate TruthyText(s: Option<string>) {
    s.Some? && |s.value| > 0
  }

  /** `o[key]`: the value stored under `key`, `undefined` when absent. */
  function Field(o: Obj, key: string): (r: Option<JsValue>)
    ensures r.Some? <==> key in o
    ensures r.Some? ==> r.value == o[key]
  {
    if key in o then Some(o[key]) else None
  }

  /** `o?.[key]` on an object that may itself be `undefined`. */
  function OptionalField(o: Option<Obj>, key: string): (r: Option<JsValue>)
    ensures r.Some? <==> o.Some? && key in o.value
    ensures r.Some? ==> r.value == o.value[key]
  {
    match o
    case Some(obj) => Field(obj, key)
    case None => None
  }

  /** `(v as string)?.length > 0`: `v` is a string with at least one character.
      Any other value has no `length`, and `undefined > 0` is false. */
  predicate NonEmptyString(v: Option<JsValue>) {
    v.Some? && v.value.JsString? && |v.value.s| > 0
  }
}

=== FILE: orchestrator.dfy ===
/** The execution orchestrator of useRunWorkflow.ts: submitting a run
    (`runWorkflowApi`), building and guarding it (`runWorkflow`), and stopping
    it (`stopCurrentExecution`). Store, toast, document-title and form-display
    calls are side effects outside the model; their results enter as inputs. */
module Orchestrator {
  import opened Wrappers
  import opened Js
  import opened Workflow
  import Planner

  /** Id of the optimistic execution shown while a run is being submitted. */
  const InProgressExecutionId: string := "__IN_PROGRESS__"
  /** `source` of a run started from the manual chat. */
  const ManualChatMessageSource: string := "RunData.ManualChatMessage"
  /** `PartialExecution.version` value under which the backend gets the full run data. */
  const BackendPlansPartialExecution: int := 1

  datatype ExecutionStatus = Running

  /** The execution data the store shows (`setWorkflowExecutionData`). */
  datatype ExecutionView = ExecutionView(
    id: Option<string>,
    finished: bool,
    status: Option<ExecutionStatus>,
    executedNode: Option<string>,
    runData: RunData,
    pinData: Option<PinData>)

  /** The store state the orchestrator reads and writes. `workflowRunning` is
      the `'workflowRunning'` active action: the single-flight guard. */
  datatype EditorState = EditorState(
    workflowRunning: bool,
    activeExecutionId: Option<string>,
    executionWaitingForWebhook: bool,
    subWorkflowExecutionError: Option<string>,
    execution: Option<ExecutionView>)

  datatype StartNodeData = StartNodeData(name: string, sourceData: Option<SourceData>)

  /** The request sent to the backend (`IStartRunData`). */
  datatype StartRunData = StartRunData(
    nodes: seq<Node>,
    pinData: Option<PinData>,
    runData: Option<RunData>,
    startNodes: seq<StartNodeData>,
    destinationNode: Option<string>)

  /** The backend's acknowledgement; an absent `waitingForWebhook` is `false`. */
  datatype PushResponse = PushResponse(executionId: Option<string>, waitingForWebhook: bool)

  datatype ApiError = NoActiveConnection | SubmissionFailed(reason: string) | OutstandingIssues

  datatype ApiStep = ApiStep(state: EditorState, response: Result<PushResponse, ApiError>)

  // ---------------------------------------------------------------- runWorkflowApi

  /** `runWorkflowApi`: refuse without a push connection, otherwise raise the
      guard, submit, and lower the guard again when the submission fails or the
      backend waits for a webhook while node issues exist. `backend` is what
      the store's `runWorkflow` call returns or throws. */
  function RunWorkflowApi(
    s: EditorState, pushConnectionActive: bool,
    backend: Result<PushResponse, string>, nodesIssuesExist: bool): (r: ApiStep)
    ensures !pushConnectionActive ==> r == ApiStep(s, Failure(NoActiveConnection))
    ensures r.response.Success? <==>
              pushConnectionActive && backend.Success?
              && !(backend.value.waitingForWebhook && nodesIssuesExist)
    ensures pushConnectionActive ==> (r.state.workflowRunning <==> r.response.Success?)
    ensures r.response.Success? ==>
              && r.response.value == backend.value
              && r.state.executionWaitingForWebhook
                 == (s.executionWaitingForWebhook || backend.value.waitingForWebhook)
    ensures pushConnectionActive && backend.Success? ==>
              r.state.activeExecutionId
              == (if backend.value.executionId.Some? then backend.value.executionId else s.activeExecutionId)
    ensures pushConnectionActive ==> r.state.subWorkflowExecutionError.None? && r.state.execution == s.execution
    ensures pushConnectionActive && backend.Failure? ==>
              r == ApiStep(s.(subWorkflowExecutionError := None, workflowRunning := false),
                           Failure(SubmissionFailed(backend.error)))
    ensures r.response == Failure(OutstandingIssues) <==>
              pushConnectionActive && backend.Success? && backend.value.waitingForWebhook && nodesIssuesExist
    ensures r.response.Failure? ==> r.state.executionWaitingForWebhook == s.executionWaitingForWebhook
  {
    if !pushConnectionActive then
      ApiStep(s, Failure(NoActiveConnection))
    else
      var s1 := s.(subWorkflowExecutionError := None, workflowRunning := true);
      match backend
      case Failure(reason) =>
        ApiStep(s1.(workflowRunning := false), Failure(SubmissionFailed(reason)))
      case Success(response) =>
        var s2 := if response.executionId.Some? then s1.(activeExecutionId := response.executionId) else s1;
        if response.waitingForWebhook && nodesIssuesExist then
          ApiStep(s2.(workflowRunning := false), Failure(OutstandingIssues))
        else
          var s3 := if response.waitingForWebhook then s2.(executionWaitingForWebhook := true) else s2;
          ApiStep(s3, Success(response))
  }

  // ---------------------------------------------------------------- start nodes

  /** The options of a `runWorkflow` call. */
  datatype RunOptions = RunOptions(
    destinationNode: Option<string>,
    triggerNode: Option<string>,
    nodeData: Option<TaskData>,
    source: Option<string>,
    unitTest: Option<bool>)

  /** Start nodes, run data and executed node chosen for a run. */
  datatype Selection = Selection(startNodeNames: seq<string>, runData: Option<RunData>, executedNode: Option<string>)

  /** The destination's ancestors at every depth; none without a destination. */
  function DirectParents(g: Graph, o: RunOptions): seq<string> {
    if o.destinationNode.Some? then g.parentsOf(o.destinationNode.value, AllDepths) else []
  }

  /** The start-node step of `runWorkflow`: ask the planner, then fall back to
      the destination when it names no start node, or else seed the given
      trigger with the given task data. */
  function SelectStartNodes(o: RunOptions, g: Graph, runData: Option<RunData>, pinData: Option<PinData>)
    : (r: Result<Selection, Planner.PlanError>)
    ensures var plan := Planner.Consolidate(DirectParents(g, o), runData, pinData, g, o.unitTest.GetOr(false), o.triggerNode);
            && (r.Failure? <==> plan.Failure?)
            && (r.Success? && |plan.value.startNodeNames| == 0 && o.destinationNode.Some? ==>
                  r.value == Selection([o.destinationNode.value], plan.value.runData, o.destinationNode))
            && (r.Success? && !(|plan.value.startNodeNames| == 0 && o.destinationNode.Some?)
                && o.triggerNode.Some? && o.nodeData.Some? ==>
                  && r.value.startNodeNames == plan.value.startNodeNames + g.childrenOf(o.triggerNode.value, 1)
                  && r.value.runData == Some(map[o.triggerNode.value := [o.nodeData.value]])
                  && r.value.executedNode == o.triggerNode)
            && (r.Success? && !(|plan.value.startNodeNames| == 0 && o.destinationNode.Some?)
                && !(o.triggerNode.Some? && o.nodeData.Some?) ==>
                  r.value == Selection(plan.value.startNodeNames, plan.value.runData, None))
    ensures r.Success? && o.destinationNode.Some? ==> |r.value.startNodeNames| > 0
    ensures r.Success? && r.value.executedNode.Some? ==>
              r.value.executedNode == o.destinationNode || r.value.executedNode == o.triggerNode
  {
    var plan :- Planner.Consolidate(DirectParents(g, o), runData, pinData, g, o.unitTest.GetOr(false), o.triggerNode);
    if |plan.startNodeNames| == 0 && o.destinationNode.Some? then
      Success(Selection([o.destinationNode.value], plan.runData, o.destinationNode))
    else if o.triggerNode.Some? && o.nodeData.Some? then
      Success(Selection(
        plan.startNodeNames + g.childrenOf(o.triggerNode.value, 1),
        Some(map[o.triggerNode.value := [o.nodeData.value]]),
        o.triggerNode))
    else
      Success(Selection(plan.startNodeNames, plan.runData, None))
  }

  /** `get(runData, [name, 0, 'source', 0], null)`. */
  function RecordedSource(runData: Option<RunData>, name: string): Option<SourceData> {
    if runData.Some? && name in runData.value && |runData.value[name]| > 0
       && |runData.value[name][0].source| > 0
    then runData.value[name][0].source[0]
    else None
  }

  /** Start-node records: each name with the provenance recorded in its first
      run, or else the provenance `fallback` derives from its direct parents
      (`workflowHelpers.executeData`, not part of this model). */
  function StartNodeSources(names: seq<string>, runData: Option<RunData>, fallback: string -> Option<SourceData>)
    : (r: seq<StartNodeData>)
    ensures |r| == |names|
    ensures forall i :: 0 <= i < |names| ==>
              && r[i].name == names[i]
              && (RecordedSource(runData, names[i]).Some? ==> r[i].sourceData == RecordedSource(runData, names[i]))
              && (RecordedSource(runData, names[i]).None? ==> r[i].sourceData == fallback(names[i]))
  {
    seq(|names|, i requires 0 <= i < |names| =>
      var recorded := RecordedSource(runData, names[i]);
      StartNodeData(names[i], if recorded.Some? then recorded else fallback(names[i])))
  }

  // ---------------------------------------------------------------- trigger nodes

  function LowerAscii(c: char): char {
    if 'A' <= c <= 'Z' then (c as int + 32) as char else c
  }

  /** `s.toLowerCase()` on ASCII letters. */
  function ToLower(s: string): (r: string)
    ensures |r| == |s|
    ensures forall i :: 0 <= i < |s| ==> r[i] == LowerAscii(s[i])
  {
    seq(|s|, i requires 0 <= i < |s| => LowerAscii(s[i]))
  }

  /** `sub` occurs in `s` at position `i`. */
  predicate OccursAt(s: string, sub: string, i: nat) {
    i + |sub| <= |s| && s[i..i + |sub|] == sub
  }

  /** `s.includes(sub)`. */
  function Includes(s: string, sub: string): (r: bool)
    ensures r <==> exists i: nat :: OccursAt(s, sub, i)
    decreases |s|
  {
    if |sub| > |s| then false
    else if s[..|sub|] == sub then
      assert OccursAt(s, sub, 0);
      true
    else
      var r := Includes(s[1..], sub);
      assert r ==> exists i: nat :: OccursAt(s, sub, i) by {
        if r {
          var i: nat :| OccursAt(s[1..], sub, i);
          assert s[i + 1..i + 1 + |sub|] == s[1..][i..i + |sub|];
          assert OccursAt(s, sub, i + 1);
        }
      }
      assert (exists i: nat :: OccursAt(s, sub, i)) ==> r by {
        if exists i: nat :: OccursAt(s, sub, i) {
          var i: nat :| OccursAt(s, sub, i);
          assert i != 0;
          assert s[1..][i - 1..i - 1 + |sub|] == s[i..i + |sub|];
          assert OccursAt(s[1..], sub, i - 1);
        }
      }
      r
  }

  /** A trigger for `runWorkflow`: its type mentions "trigger" in any case, and
      it is not disabled. */
  predicate IsActiveTrigger(n: Node) {
    Includes(ToLower(n.nodeType), "trigger") && n.disabled != Some(true)
  }

  /** `nodes.filter(IsActiveTrigger)`. */
  function ActiveTriggers(nodes: seq<Node>): (r: seq<Node>)
    ensures forall n :: n in r <==> n in nodes && IsActiveTrigger(n)
    ensures |r| <= |nodes|
    decreases |nodes|
  {
    if |nodes| == 0 then []
    else (if IsActiveTrigger(nodes[0]) then [nodes[0]] else []) + ActiveTriggers(nodes[1..])
  }

  /** `ActiveTriggers` is the order-preserving filter: it distributes over
      concatenation and keeps a single node exactly when it is an active trigger. */
  lemma {:induction false} ActiveTriggersAppend(a: seq<Node>, b: seq<Node>)
    ensures ActiveTriggers(a + b) == ActiveTriggers(a) + ActiveTriggers(b)
    ensures |a| == 1 ==> ActiveTriggers(a) == (if IsActiveTrigger(a[0]) then a else [])
    decreases |a|
  {
    if |a| == 0 {
      assert a + b == b;
    } else {
      var ab := a + b;
      var head := if IsActiveTrigger(a[0]) then [a[0]] else [];
      assert ab[0] == a[0];
      assert ab[1..] == a[1..] + b;
      ActiveTriggersAppend(a[1..], b);
      calc {
        ActiveTriggers(ab);
        head + ActiveTriggers(a[1..] + b);
        head + (ActiveTriggers(a[1..]) + ActiveTriggers(b));
        (head + ActiveTriggers(a[1..])) + ActiveTriggers(b);
      }
      if |a| == 1 {
        assert a[1..] == [];
      }
    }
  }

  /** Position of the first node of type `t`. */
  function FirstOfType(nodes: seq<Node>, t: string): (r: Option<nat>)
    ensures r.Some? ==> r.value < |nodes| && nodes[r.value].nodeType == t
                        && forall j :: 0 <= j < r.value ==> nodes[j].nodeType != t
    ensures r.None? ==> forall j :: 0 <= j < |nodes| ==> nodes[j].nodeType != t
    decreases |nodes|
  {
    if |nodes| == 0 then None
    else if nodes[0].nodeType == t then Some(0)
    else match FirstOfType(nodes[1..], t)
      case Some(i) => Some(i + 1)
      case None => None
  }

  /** A run without destination, not started from the chat, in a workflow with a
      chat trigger and at least one other active trigger. */
  predicate DisablesChatTrigger(o: RunOptions, nodes: seq<Node>, chatTriggerType: string) {
    && !TruthyText(o.destinationNode)
    && o.source != Some(ManualChatMessageSource)
    && (exists i :: 0 <= i < |nodes| && nodes[i].nodeType == chatTriggerType)
    && (exists n :: n in ActiveTriggers(nodes) && n.nodeType != chatTriggerType)
  }

  /** The nodes submitted with the run: for a run that `DisablesChatTrigger`,
      the first chat trigger is disabled in the submitted copy only. */
  function SubmissionNodes(nodes: seq<Node>, o: RunOptions, chatTriggerType: string): (r: seq<Node>)
    ensures |r| == |nodes|
    ensures forall i :: 0 <= i < |nodes| && r[i] != nodes[i] ==>
              && DisablesChatTrigger(o, nodes, chatTriggerType)
              && FirstOfType(nodes, chatTriggerType) == Some(i)
              && r[i] == nodes[i].(disabled := Some(true))
    ensures DisablesChatTrigger(o, nodes, chatTriggerType) ==>
              && FirstOfType(nodes, chatTriggerType).Some?
              && r[FirstOfType(nodes, chatTriggerType).value].disabled == Some(true)
  {
    if DisablesChatTrigger(o, nodes, chatTriggerType) then
      var i := FirstOfType(nodes, chatTriggerType).value;
      nodes[i := nodes[i].(disabled := Some(true))]
    else
      nodes
  }

  /** `triggers.find((node) => SINGLE_WEBHOOK_TRIGGERS.includes(node.type))`. */
  function FindSingleWebhookTrigger(triggers: seq<Node>, singleWebhookTypes: seq<string>): (r: Option<Node>)
    ensures r.Some? ==> exists i :: && 0 <= i < |triggers| && triggers[i] == r.value
                                    && r.value.nodeType in singleWebhookTypes
                                    && forall j :: 0 <= j < i ==> triggers[j].nodeType !in singleWebhookTypes
    ensures r.None? ==> forall n :: n in triggers ==> n.nodeType !in singleWebhookTypes
    decreases |triggers|
  {
    if |triggers| == 0 then None
    else if triggers[0].nodeType in singleWebhookTypes then Some(triggers[0])
    else FindSingleWebhookTrigger(triggers[1..], singleWebhookTypes)
  }

  // ---------------------------------------------------------------- runWorkflow

  /** What `runWorkflow` reads besides its options. The chat trigger type and
      the single-webhook trigger list come from the editor's constants module,
      which is not part of this model. */
  datatype Environment = Environment(
    graph: Graph,
    runData: Option<RunData>,
    pinData: Option<PinData>,
    chatTriggerType: string,
    singleWebhookTriggerTypes: seq<string>,
    hasChatParent: string -> bool,
    startNodeOf: string -> Option<Node>,
    hasChatInput: string -> bool,
    fallbackSource: string -> Option<SourceData>,
    isWorkflowActive: bool,
    partialExecutionVersion: int,
    pushConnectionActive: bool,
    backend: Result<PushResponse, string>,
    nodesIssuesExist: bool,
    externalHookFails: bool)

  datatype RunError = PlanFailed(planError: Planner.PlanError) | ApiFailed(apiError: ApiError) | HookFailed

  /** How a `runWorkflow` call ended; every case but `Submitted` resolves to `undefined`. */
  datatype RunOutcome =
    | AlreadyRunning
    | ChatDeferred
    | WebhookConflict(nodeName: string)
    | RunFailed(error: RunError)
    | Submitted(response: PushResponse)

  datatype RunResult = RunResult(state: EditorState, outcome: RunOutcome, request: Option<StartRunData>)

  /** The backend accepted the request: it was submitted, whatever happened after. */
  predicate Accepted(o: RunOutcome) {
    o.Submitted? || o == RunFailed(HookFailed)
  }

  /** The destination is, or descends from, a chat trigger that has neither
      input nor pinned data: the chat panel opens instead of a run. */
  predicate ChatInputMissing(o: RunOptions, env: Environment) {
    && TruthyText(o.destinationNode)
    && (var d := o.destinationNode.value;
        var destination := FindNode(env.graph.nodes, d);
        && (env.hasChatParent(d) || (destination.Some? && destination.value.nodeType == env.chatTriggerType))
        && (var start := env.startNodeOf(d);
            && start.Some? && start.value.nodeType == env.chatTriggerType
            && !env.hasChatInput(start.value.name)
            && !(env.pinData.Some? && start.value.name in env.pinData.value)))
  }

  /** The run data sent to the backend: under the new partial-execution flow the
      stored run data unchanged, under the old flow or the backend default
      (any other version) the planner's selection. */
  function RequestRunData(version: int, stored: Option<RunData>, selected: Option<RunData>): (r: Option<RunData>)
    ensures version == BackendPlansPartialExecution ==> r == stored
    ensures version != BackendPlansPartialExecution ==> r == selected
  {
    if version == BackendPlansPartialExecution then stored else selected
  }

  /** The optimistic execution shown while the request is in flight. */
  function InProgressExecution(sel: Selection, pinData: Option<PinData>): ExecutionView {
    ExecutionView(Some(InProgressExecutionId), false, Some(Running), sel.executedNode, sel.runData.GetOr(map[]), pinData)
  }

  /** `runWorkflow`. The graph accessor's node list stands for the store's
      nodes and the save-data copy alike. */
  function RunWorkflow(s: EditorState, o: RunOptions, env: Environment): (r: RunResult)
    ensures s.workflowRunning ==> r == RunResult(s, AlreadyRunning, None)
    ensures !s.workflowRunning ==> (r.state.workflowRunning <==> Accepted(r.outcome))
    ensures r.request.None? <==>
              r.outcome.AlreadyRunning? || r.outcome.ChatDeferred? || r.outcome.WebhookConflict?
              || (r.outcome.RunFailed? && r.outcome.error.PlanFailed?)
    ensures r.request.None? ==> r.state == s
    ensures r.request.Some? ==>
              && r.state.execution.Some?
              && r.state.execution.value.id == Some(InProgressExecutionId)
              && r.state.execution.value.status == Some(Running)
              && r.request.value.destinationNode == o.destinationNode
    ensures r.request.Some? && o.destinationNode.Some? ==> |r.request.value.startNodes| > 0
    ensures r.outcome.Submitted? && r.outcome.response.executionId.Some? ==>
              r.state.activeExecutionId == r.outcome.response.executionId
    ensures r.outcome.ChatDeferred? <==>
              !s.workflowRunning && SelectStartNodes(o, env.graph, env.runData, env.pinData).Success?
              && ChatInputMissing(o, env)
    ensures r.outcome.WebhookConflict? <==>
              && !s.workflowRunning && SelectStartNodes(o, env.graph, env.runData, env.pinData).Success?
              && !ChatInputMissing(o, env) && env.isWorkflowActive
              && FindSingleWebhookTrigger(ActiveTriggers(env.graph.nodes), env.singleWebhookTriggerTypes).Some?
    ensures r.outcome.WebhookConflict? ==>
              r.outcome.nodeName
              == FindSingleWebhookTrigger(ActiveTriggers(env.graph.nodes), env.singleWebhookTriggerTypes).value.name
  {
    if s.workflowRunning then
      RunResult(s, AlreadyRunning, None)
    else
      match SelectStartNodes(o, env.graph, env.runData, env.pinData)
      case Failure(e) => RunResult(s, RunFailed(PlanFailed(e)), None)
      case Success(sel) =>
        if ChatInputMissing(o, env) then
          RunResult(s, ChatDeferred, None)
        else
          var triggers := ActiveTriggers(env.graph.nodes);
          var webhookTrigger := FindSingleWebhookTrigger(triggers, env.singleWebhookTriggerTypes);
          if webhookTrigger.Some? && env.isWorkflowActive then
            RunResult(s, WebhookConflict(webhookTrigger.value.name), None)
          else
            Submit(s, o, env, sel)
  }

  /** The submission step of `runWorkflow`: build the request, show the
      in-progress execution, hand over to `runWorkflowApi` and run the
      external hook. */
  function Submit(s: EditorState, o: RunOptions, env: Environment, sel: Selection): (r: RunResult)
    requires !s.workflowRunning
    ensures r.request.Some?
    ensures r.request.value.destinationNode == o.destinationNode
    ensures |r.request.value.startNodes| == |sel.startNodeNames|
    ensures r.request.value.startNodes == StartNodeSources(sel.startNodeNames, env.runData, env.fallbackSource)
    ensures r.request.value.nodes == SubmissionNodes(env.graph.nodes, o, env.chatTriggerType)
    ensures r.request.value.pinData == env.pinData
    ensures r.outcome.Submitted? || r.outcome == RunFailed(HookFailed) || (r.outcome.RunFailed? && r.outcome.error.ApiFailed?)
    ensures r.state.workflowRunning <==> Accepted(r.outcome)
    ensures && r.state.execution.Some?
            && r.state.execution.value.id == Some(InProgressExecutionId)
            && r.state.execution.value.status == Some(Running)
    ensures r.outcome.Submitted? && r.outcome.response.executionId.Some? ==>
              r.state.activeExecutionId == r.outcome.response.executionId
  {
    var nodes := SubmissionNodes(env.graph.nodes, o, env.chatTriggerType);
    var startNodes := StartNodeSources(sel.startNodeNames, env.runData, env.fallbackSource);
    var request := StartRunData(
      nodes, env.pinData,
      RequestRunData(env.partialExecutionVersion, env.runData, sel.runData),
      startNodes, o.destinationNode);
    var shown := s.(execution := Some(InProgressExecution(sel, env.pinData)));
    var api := RunWorkflowApi(shown, env.pushConnectionActive, env.backend, env.nodesIssuesExist);
    if api.response.Failure? then
      RunResult(api.state, RunFailed(ApiFailed(api.response.error)), Some(request))
    else if env.externalHookFails then
      RunResult(api.state, RunFailed(HookFailed), Some(request))
    else
      RunResult(api.state, Submitted(api.response.value), Some(request))
  }

  /** The value the `runWorkflow` promise resolves to. */
  function Returned(outcome: RunOutcome): (r: Option<PushResponse>)
    ensures r.Some? <==> outcome.Submitted?
  {
    if outcome.Submitted? then Some(outcome.response) else None
  }

  // ---------------------------------------------------------------- stopCurrentExecution

  /** The backend's answer to the stop request. */
  datatype StopReply = StopAccepted | StopRejected(reason: string)

  /** An execution as `getExecution` returns it. */
  datatype FetchedExecution = FetchedExecution(finished: bool, runData: RunData, pinData: Option<PinData>)

  datatype StopNotice = UnsavedNotice | StoppedAfterCompletionNotice | StopErrorNotice(reason: string)

  /** `thrown` is an error `getExecution` raised, which leaves the call. */
  datatype StopResult = StopResult(state: EditorState, notices: seq<StopNotice>, thrown: Option<string>)

  /** `markExecutionAsStopped` (a store action, not part of this model): the
      active id and the webhook wait are cleared and the guard is released. */
  function MarkExecutionAsStopped(s: EditorState): EditorState {
    s.(activeExecutionId := None, executionWaitingForWebhook := false, workflowRunning := false)
  }

  predicate Released(s: EditorState) {
    !s.workflowRunning && s.activeExecutionId.None? && !s.executionWaitingForWebhook
  }

  /** The finished execution adopted as the shown one (`executedData`). */
  function Adopted(e: FetchedExecution): ExecutionView {
    ExecutionView(None, e.finished, None, None, e.runData, e.pinData)
  }

  /** `stopCurrentExecution`: nothing without an active execution; otherwise
      send the stop request and, when it is rejected, look the execution up to
      tell "finished but unsaved", "finished before the stop" and a genuine
      error apart; in every case mark the execution as stopped at the end. */
  function StopCurrentExecution(s: EditorState, reply: StopReply, fetched: Result<Option<FetchedExecution>, string>)
    : (r: StopResult)
    ensures s.activeExecutionId.None? ==> r == StopResult(s, [], None)
    ensures s.activeExecutionId.Some? ==> Released(r.state)
    ensures |r.notices| <= 1
    ensures r.thrown.Some? <==> s.activeExecutionId.Some? && reply.StopRejected? && fetched.Failure?
    ensures UnsavedNotice in r.notices <==>
              s.activeExecutionId.Some? && reply.StopRejected? && fetched == Success(None)
    ensures StoppedAfterCompletionNotice in r.notices <==>
              && s.activeExecutionId.Some? && reply.StopRejected?
              && fetched.Success? && fetched.value.Some? && fetched.value.value.finished
    ensures reply.StopRejected? ==>
              (StopErrorNotice(reply.reason) in r.notices <==>
                 && s.activeExecutionId.Some?
                 && fetched.Success? && fetched.value.Some? && !fetched.value.value.finished)
    ensures reply.StopAccepted? ==> r.notices == []
    ensures StoppedAfterCompletionNotice in r.notices ==> r.state.execution == Some(Adopted(fetched.value.value))
    ensures StoppedAfterCompletionNotice !in r.notices ==> r.state.execution == s.execution
  {
    if s.activeExecutionId.None? then
      StopResult(s, [], None)
    else
      match reply
      case StopAccepted => StopResult(MarkExecutionAsStopped(s), [], None)
      case StopRejected(reason) =>
        match fetched
        case Failure(e) => StopResult(MarkExecutionAsStopped(s), [], Some(e))
        case Success(None) => StopResult(MarkExecutionAsStopped(s), [UnsavedNotice], None)
        case Success(Some(e)) =>
          if e.finished then
            StopResult(MarkExecutionAsStopped(s.(execution := Some(Adopted(e)))), [StoppedAfterCompletionNotice], None)
          else
            StopResult(MarkExecutionAsStopped(s), [StopErrorNotice(reason)], None)
  }
}

=== FILE: orchestrator_lemmas.dfy ===
/** Properties of the orchestrator that relate several calls: unit-test runs,
    the single-flight guard across runs, and stopping a submitted run. */
module OrchestratorLemmas {
  import opened Wrappers
  import opened Js
  import opened Workflow
  import Planner
  import opened Orchestrator

  /** The options a unit-test runner passes: destination, trigger, `unitTest: true`. */
  predicate IsUnitTestRun(o: RunOptions) {
    o.unitTest == Some(true) && TruthyText(o.triggerNode) && o.nodeData.None?
  }

  /** A unit-test run starts exactly at its trigger with an empty run data map,
      whatever the stored run and pinned data are. */
  lemma UnitTestRunStartsAtTrigger(o: RunOptions, g: Graph, runData: Option<RunData>, pinData: Option<PinData>)
    requires IsUnitTestRun(o)
    ensures SelectStartNodes(o, g, runData, pinData) == Success(Selection([o.triggerNode.value], Some(map[]), None))
  {
    assert Planner.Consolidate(DirectParents(g, o), runData, pinData, g, true, o.triggerNode)
           == Success(Planner.Consolidated(Some(map[]), [o.triggerNode.value]));
  }

  /** A submitted unit-test run asks the backend to start at the trigger alone,
      and, unless the backend plans partial executions itself, sends an empty
      run data map. */
  lemma UnitTestRunRequest(s: EditorState, o: RunOptions, env: Environment)
    requires IsUnitTestRun(o)
    requires RunWorkflow(s, o, env).request.Some?
    ensures var req := RunWorkflow(s, o, env).request.value;
            && |req.startNodes| == 1
            && req.startNodes[0].name == o.triggerNode.value
            && (env.partialExecutionVersion != BackendPlansPartialExecution ==> req.runData == Some(map[]))
  {
    UnitTestRunStartsAtTrigger(o, env.graph, env.runData, env.pinData);
  }

  /** Single flight: once a run was accepted, a second `runWorkflow` in the
      resulting state returns undefined and submits nothing. */
  lemma SecondRunWhileFirstInFlight(s: EditorState, o1: RunOptions, env1: Environment, o2: RunOptions, env2: Environment)
    requires !s.workflowRunning
    requires Accepted(RunWorkflow(s, o1, env1).outcome)
    ensures var second := RunWorkflow(RunWorkflow(s, o1, env1).state, o2, env2);
            second.outcome == AlreadyRunning && second.request.None? && Returned(second.outcome).None?
  {
  }

  /** A run the backend did not accept leaves the guard down, so the next run
      gets past the single-flight check. */
  lemma RejectedRunAllowsRetry(s: EditorState, o1: RunOptions, env1: Environment, o2: RunOptions, env2: Environment)
    requires !s.workflowRunning
    requires !Accepted(RunWorkflow(s, o1, env1).outcome)
    ensures RunWorkflow(RunWorkflow(s, o1, env1).state, o2, env2).outcome != AlreadyRunning
  {
  }

  /** Stopping a run the backend acknowledged with an execution id always
      releases the guard and clears the id, whichever way the stop goes. */
  lemma StopAfterSubmitReleasesGuard(
    s: EditorState, o: RunOptions, env: Environment, reply: StopReply, fetched: Result<Option<FetchedExecution>, string>)
    requires !s.workflowRunning
    requires RunWorkflow(s, o, env).outcome.Submitted?
    requires RunWorkflow(s, o, env).outcome.response.executionId.Some?
    ensures RunWorkflow(s, o, env).state.workflowRunning
    ensures Released(StopCurrentExecution(RunWorkflow(s, o, env).state, reply, fetched).state)
  {
  }

  /** The submitted request carries the node list with the chat trigger
      adjusted for submission, the pinned data unchanged, and one start-node
      record per selected start node, with recorded provenance preferred over
      the derived one. */
  lemma RequestStartNodesFollowSelection(s: EditorState, o: RunOptions, env: Environment)
    requires !s.workflowRunning
    requires RunWorkflow(s, o, env).request.Some?
    ensures SelectStartNodes(o, env.graph, env.runData, env.pinData).Success?
    ensures var sel := SelectStartNodes(o, env.graph, env.runData, env.pinData).value;
            var req := RunWorkflow(s, o, env).request.value;
            && |req.startNodes| == |sel.startNodeNames|
            && (forall i :: 0 <= i < |sel.startNodeNames| ==> req.startNodes[i].name == sel.startNodeNames[i])
            && req.runData == RequestRunData(env.partialExecutionVersion, env.runData, sel.runData)
            && req.nodes == SubmissionNodes(env.graph.nodes, o, env.chatTriggerType)
            && req.pinData == env.pinData
            && req.startNodes == StartNodeSources(sel.startNodeNames, env.runData, env.fallbackSource)
  {
  }
}

=== FILE: planner.dfy ===
/** The run planner (`consolidateRunDataAndStartNodes`): from the direct parents
    of the destination node, the prior run data and the pinned data it computes
    the nodes the backend must execute afresh and the run data it may reuse. */
module Planner {
  import opened Wrappers
  import opened Js
  import opened Workflow

  /** The planner's answer. `runData` is `None` for `undefined`, which the
      backend reads differently from an empty map. */
  datatype Consolidated = Consolidated(runData: Option<RunData>, startNodeNames: seq<string>)

  /** `workflow.nodes[p].type` on a direct parent that is not a node of the
      workflow throws a TypeError. */
  datatype PlanError = UnknownNode(name: string)

  /** State of the loop over the direct parents. */
  datatype Walk = Walk(starts: seq<string>, carried: RunData)

  /** Outcome of the walk along one branch. */
  datatype BranchWalk = BranchWalk(start: Option<string>, carried: RunData)

  /** `runData[q]?.length`, with `undefined` read as 0. */
  function RunCount(rd: RunData, q: string): nat {
    if q in rd then |rd[q]| else 0
  }

  /** `pinData?.[q]?.length`, with `undefined` read as 0. */
  function PinCount(pd: Option<PinData>, q: string): nat {
    if pd.Some? && q in pd.value then |pd.value[q]| else 0
  }

  /** `runData[q]?.[0]?.error !== undefined`. */
  predicate FirstRunErrored(rd: RunData, q: string) {
    q in rd && |rd[q]| > 0 && rd[q][0].error.Some?
  }

  /** A probed node the backend has to execute: it has neither runs nor pinned
      items, or its first run failed (whether or not it is pinned). */
  predicate NeedsRun(rd: RunData, pd: Option<PinData>, q: string) {
    (RunCount(rd, q) == 0 && PinCount(pd, q) == 0) || FirstRunErrored(rd, q)
  }

  /** `disabled ?? isUnitTestTrigger`: a defined `disabled` decides alone; only
      an absent one defers to the node type. */
  predicate IsSkippedParent(n: Node) {
    match n.disabled
    case Some(d) => d
    case None => n.nodeType == UnitTestTriggerType
  }

  /** `runData[q].slice(0, 1)`. */
  function FirstRun(rd: RunData, q: string): seq<TaskData>
    requires q in rd
  {
    if |rd[q]| == 0 then [] else rd[q][..1]
  }

  /** The nodes probed for direct parent `p`: its ancestors, then `p` itself. */
  function ProbeList(g: Graph, p: string): seq<string> {
    g.parentsOf(p, AllDepths) + [p]
  }

  /** Position of the first probe that needs a run; `|probe|` when there is none. */
  function Cutoff(probe: seq<string>, rd: RunData, pd: Option<PinData>): (i: nat)
    ensures i <= |probe|
    ensures forall j :: 0 <= j < i ==> !NeedsRun(rd, pd, probe[j])
    ensures i < |probe| ==> NeedsRun(rd, pd, probe[i])
    decreases |probe|
  {
    if |probe| == 0 then 0
    else if NeedsRun(rd, pd, probe[0]) then 0
    else 1 + Cutoff(probe[1..], rd, pd)
  }

  /** The probes before the cutoff that have a run list: the ones whose first
      run a branch carries forward. */
  function ReusedProbes(probe: seq<string>, rd: RunData, pd: Option<PinData>): set<string> {
    set j | 0 <= j < Cutoff(probe, rd, pd) && probe[j] in rd :: probe[j]
  }

  /** Every carried entry is the first run of that node in `rd`. */
  predicate Consistent(m: RunData, rd: RunData) {
    forall q :: q in m ==> q in rd && m[q] == FirstRun(rd, q)
  }

  lemma ReusedProbesStep(probe: seq<string>, rd: RunData, pd: Option<PinData>)
    requires |probe| > 0 && !NeedsRun(rd, pd, probe[0])
    ensures ReusedProbes(probe, rd, pd)
            == (if probe[0] in rd then {probe[0]} else {}) + ReusedProbes(probe[1..], rd, pd)
  {
    var c := Cutoff(probe, rd, pd);
    assert c == 1 + Cutoff(probe[1..], rd, pd);
    var head: set<string> := if probe[0] in rd then {probe[0]} else {};
    forall x | x in ReusedProbes(probe, rd, pd)
      ensures x in head + ReusedProbes(probe[1..], rd, pd)
    {
      var j :| 0 <= j < c && probe[j] in rd && probe[j] == x;
      if j > 0 {
        assert probe[1..][j - 1] == x;
      }
    }
    forall x | x in head + ReusedProbes(probe[1..], rd, pd)
      ensures x in ReusedProbes(probe, rd, pd)
    {
      if x !in head {
        var j :| 0 <= j < c - 1 && probe[1..][j] in rd && probe[1..][j] == x;
        assert probe[j + 1] == x;
      }
    }
  }

  /** The inner loop over one branch's probe list: stop at the first node that
      needs a run and make it the branch's start node; before that, carry the
      first run of every probed node that has a run list. */
  function WalkBranch(probe: seq<string>, rd: RunData, pd: Option<PinData>, carried: RunData): (r: BranchWalk)
    ensures r.start == (var i := Cutoff(probe, rd, pd); if i < |probe| then Some(probe[i]) else None)
    ensures r.carried.Keys == carried.Keys + ReusedProbes(probe, rd, pd)
    ensures Consistent(carried, rd) ==> Consistent(r.carried, rd)
    decreases |probe|
  {
    if |probe| == 0 then BranchWalk(None, carried)
    else
      var q := probe[0];
      if NeedsRun(rd, pd, q) then
        BranchWalk(Some(q), carried)
      else
        var next := if q in rd && !FirstRunErrored(rd, q) then carried[q := FirstRun(rd, q)] else carried;
        ReusedProbesStep(probe, rd, pd);
        WalkBranch(probe[1..], rd, pd, next)
  }

  /** Direct parent `p` is a known node that the skip guard lets through. */
  predicate IsProbedParent(g: Graph, p: string) {
    var n := FindNode(g.nodes, p);
    n.Some? && !IsSkippedParent(n.value)
  }

  /** The outer loop over the direct parents, in order. */
  function WalkParents(ps: seq<string>, g: Graph, rd: RunData, pd: Option<PinData>): (r: Result<Walk, PlanError>)
    ensures r.Failure? <==> exists i :: 0 <= i < |ps| && FindNode(g.nodes, ps[i]).None?
    ensures r.Success? ==> Consistent(r.value.carried, rd) && |r.value.starts| <= |ps|
    decreases |ps|
  {
    if |ps| == 0 then Success(Walk([], map[]))
    else
      var w :- WalkParents(ps[..|ps| - 1], g, rd, pd);
      var p := ps[|ps| - 1];
      match FindNode(g.nodes, p)
      case None => Failure(UnknownNode(p))
      case Some(n) =>
        if IsSkippedParent(n) then Success(w)
        else
          var b := WalkBranch(ProbeList(g, p), rd, pd, w.carried);
          Success(Walk(w.starts + OptionToSeq(b.start), b.carried))
  }

  /** `consolidateRunDataAndStartNodes(directParentNodes, runData, pinData,
      workflow, unitTest, triggerNode)`; `runData` is `None` for `null`. */
  function Consolidate(
    directParents: seq<string>,
    runData: Option<RunData>,
    pinData: Option<PinData>,
    g: Graph,
    unitTest: bool,
    triggerNode: Option<string>): (r: Result<Consolidated, PlanError>)
    ensures r.Failure? ==>
              && !(unitTest && TruthyText(triggerNode))
              && runData.Some? && |runData.value| > 0
              && exists i :: 0 <= i < |directParents| && FindNode(g.nodes, directParents[i]).None?
    ensures r.Success? && r.value.runData.Some? && r.value.runData.value != map[] ==>
              && runData.Some?
              && Consistent(r.value.runData.value, runData.value)
  {
    if unitTest && TruthyText(triggerNode) then
      // manually run unit tests always start from their trigger node
      Success(Consolidated(Some(map[]), [triggerNode.value]))
    else if runData.None? || |runData.value| == 0 then
      Success(Consolidated(None, []))
    else
      var w :- WalkParents(directParents, g, runData.value, pinData);
      Success(Consolidated(if |w.carried| == 0 then None else Some(w.carried), w.starts))
  }
}

=== FILE: planner_lemmas.dfy ===
/** What the run planner computes, stated branch by branch without its loops,
    and the properties that follow. */
module PlannerLemmas {
  import opened Wrappers
  import opened Js
  import opened Workflow
  import opened Planner

  /** Every direct parent names a node of the workflow. */
  predicate AllKnown(g: Graph, ps: seq<string>) {
    forall i :: 0 <= i < |ps| ==> FindNode(g.nodes, ps[i]).Some?
  }

  /** The start node branch `p` contributes: nothing for a skipped or unknown
      parent, otherwise the first probe that needs a run, if any. */
  function BranchStart(g: Graph, rd: RunData, pd: Option<PinData>, p: string): Option<string> {
    if !IsProbedParent(g, p) then None
    else
      var probe := ProbeList(g, p);
      var i := Cutoff(probe, rd, pd);
      if i < |probe| then Some(probe[i]) else None
  }

  /** The branches' start nodes, in the order of the direct parents. */
  function ReferenceStarts(ps: seq<string>, g: Graph, rd: RunData, pd: Option<PinData>): seq<string>
    decreases |ps|
  {
    if |ps| == 0 then []
    else OptionToSeq(BranchStart(g, rd, pd, ps[0])) + ReferenceStarts(ps[1..], g, rd, pd)
  }

  /** Nodes some probed branch reaches before its cutoff and that have a run list. */
  function ReferenceCarriedKeys(ps: seq<string>, g: Graph, rd: RunData, pd: Option<PinData>): set<string> {
    set k, q | 0 <= k < |ps| && IsProbedParent(g, ps[k]) && q in ReusedProbes(ProbeList(g, ps[k]), rd, pd) :: q
  }

  /** Each such node mapped to its first run. */
  function ReferenceCarried(ps: seq<string>, g: Graph, rd: RunData, pd: Option<PinData>): RunData {
    map q | q in ReferenceCarriedKeys(ps, g, rd, pd) && q in rd :: FirstRun(rd, q)
  }

  /** The plan for non-empty run data outside the unit-test short-circuit. */
  function ReferencePlan(ps: seq<string>, rd: RunData, pd: Option<PinData>, g: Graph): Consolidated {
    var carried := ReferenceCarried(ps, g, rd, pd);
    Consolidated(if carried == map[] then None else Some(carried), ReferenceStarts(ps, g, rd, pd))
  }

  lemma {:induction false} ReferenceStartsAppend(a: seq<string>, b: seq<string>, g: Graph, rd: RunData, pd: Option<PinData>)
    ensures ReferenceStarts(a + b, g, rd, pd) == ReferenceStarts(a, g, rd, pd) + ReferenceStarts(b, g, rd, pd)
    decreases |a|
  {
    if |a| == 0 {
      assert a + b == b;
    } else {
      assert (a + b)[1..] == a[1..] + b;
      ReferenceStartsAppend(a[1..], b, g, rd, pd);
    }
  }

  lemma ReferenceStartsSnoc(ps: seq<string>, g: Graph, rd: RunData, pd: Option<PinData>)
    requires |ps| > 0
    ensures ReferenceStarts(ps, g, rd, pd)
            == ReferenceStarts(ps[..|ps| - 1], g, rd, pd) + OptionToSeq(BranchStart(g, rd, pd, ps[|ps| - 1]))
  {
    var p := ps[|ps| - 1];
    assert ps == ps[..|ps| - 1] + [p];
    ReferenceStartsAppend(ps[..|ps| - 1], [p], g, rd, pd);
    assert [p][1..] == [];
  }

  lemma ReferenceCarriedKeysSnoc(ps: seq<string>, g: Graph, rd: RunData, pd: Option<PinData>)
    requires |ps| > 0
    ensures var p := ps[|ps| - 1];
            ReferenceCarriedKeys(ps, g, rd, pd)
            == ReferenceCarriedKeys(ps[..|ps| - 1], g, rd, pd)
               + (if IsProbedParent(g, p) then ReusedProbes(ProbeList(g, p), rd, pd) else {})
  {
    var init := ps[..|ps| - 1];
    var p := ps[|ps| - 1];
    var tail: set<string> := if IsProbedParent(g, p) then ReusedProbes(ProbeList(g, p), rd, pd) else {};
    forall q | q in ReferenceCarriedKeys(ps, g, rd, pd)
      ensures q in ReferenceCarriedKeys(init, g, rd, pd) + tail
    {
      var k :| 0 <= k < |ps| && IsProbedParent(g, ps[k]) && q in ReusedProbes(ProbeList(g, ps[k]), rd, pd);
      if k < |ps| - 1 {
        assert init[k] == ps[k];
      }
    }
    forall q | q in ReferenceCarriedKeys(init, g, rd, pd) + tail
      ensures q in ReferenceCarriedKeys(ps, g, rd, pd)
    {
      if q in ReferenceCarriedKeys(init, g, rd, pd) {
        var k :| 0 <= k < |init| && IsProbedParent(g, init[k]) && q in ReusedProbes(ProbeList(g, init[k]), rd, pd);
        assert ps[k] == init[k];
      } else {
        assert ps[|ps| - 1] == p;
      }
    }
  }

  /** The parent loop computes the branch-by-branch description: start nodes in
      parent order, and exactly the reusable probes as carried keys. */
  lemma {:induction false} WalkParentsMatchesReference(ps: seq<string>, g: Graph, rd: RunData, pd: Option<PinData>)
    requires AllKnown(g, ps)
    ensures WalkParents(ps, g, rd, pd).Success?
    ensures WalkParents(ps, g, rd, pd).value.starts == ReferenceStarts(ps, g, rd, pd)
    ensures WalkParents(ps, g, rd, pd).value.carried.Keys == ReferenceCarriedKeys(ps, g, rd, pd)
    decreases |ps|
  {
    if |ps| == 0 {
      assert ReferenceCarriedKeys(ps, g, rd, pd) == {};
    } else {
      var init := ps[..|ps| - 1];
      var p := ps[|ps| - 1];
      assert AllKnown(g, init) by {
        forall i | 0 <= i < |init| ensures FindNode(g.nodes, init[i]).Some? {
          assert init[i] == ps[i];
        }
      }
      WalkParentsMatchesReference(init, g, rd, pd);
      var w := WalkParents(init, g, rd, pd).value;
      ReferenceStartsSnoc(ps, g, rd, pd);
      ReferenceCarriedKeysSnoc(ps, g, rd, pd);
      assert FindNode(g.nodes, p).Some? by {
        assert ps[|ps| - 1] == p;
      }
      var n := FindNode(g.nodes, p).value;
      if IsSkippedParent(n) {
        assert WalkParents(ps, g, rd, pd) == Success(w);
      } else {
        var b := WalkBranch(ProbeList(g, p), rd, pd, w.carried);
        assert WalkParents(ps, g, rd, pd) == Success(Walk(w.starts + OptionToSeq(b.start), b.carried));
        assert b.start == BranchStart(g, rd, pd, p);
      }
    }
  }

  /** A map whose every entry is the first run of its key is fixed by its keys. */
  lemma ConsistentIsDetermined(m: RunData, keys: set<string>, rd: RunData)
    requires Consistent(m, rd) && m.Keys == keys
    ensures m == map q | q in keys && q in rd :: FirstRun(rd, q)
  {
  }

  /** Outside the unit-test short-circuit and with non-empty run data, the
      planner's answer is the branch-by-branch plan. */
  lemma ConsolidateMatchesReference(
    ps: seq<string>, runData: Option<RunData>, pd: Option<PinData>, g: Graph,
    unitTest: bool, triggerNode: Option<string>)
    requires !(unitTest && TruthyText(triggerNode))
    requires runData.Some? && |runData.value| > 0
    requires AllKnown(g, ps)
    ensures Consolidate(ps, runData, pd, g, unitTest, triggerNode) == Success(ReferencePlan(ps, runData.value, pd, g))
  {
    var rd := runData.value;
    WalkParentsMatchesReference(ps, g, rd, pd);
    var w := WalkParents(ps, g, rd, pd).value;
    ConsistentIsDetermined(w.carried, ReferenceCarriedKeys(ps, g, rd, pd), rd);
    assert w.carried == ReferenceCarried(ps, g, rd, pd);
    assert (|w.carried| == 0) == (w.carried == map[]);
  }

  /** The unit-test short-circuit: with `unitTest` set and a non-empty trigger
      node, the plan is that trigger alone with an empty (not undefined) run
      data map, whatever the run data, pinned data and parents are. */
  lemma UnitTestShortCircuit(
    ps: seq<string>, runData: Option<RunData>, pd: Option<PinData>, g: Graph, triggerNode: Option<string>)
    requires TruthyText(triggerNode)
    ensures Consolidate(ps, runData, pd, g, true, triggerNode)
            == Success(Consolidated(Some(map[]), [triggerNode.value]))
  {
  }

  /** Outside the short-circuit, missing or empty run data plans nothing:
      no start nodes and undefined run data. */
  lemma NoRunDataNoPlan(
    ps: seq<string>, runData: Option<RunData>, pd: Option<PinData>, g: Graph,
    unitTest: bool, triggerNode: Option<string>)
    requires !(unitTest && TruthyText(triggerNode))
    requires runData.None? || runData.value == map[]
    ensures Consolidate(ps, runData, pd, g, unitTest, triggerNode) == Success(Consolidated(None, []))
  {
    if runData.Some? {
      assert |runData.value| == 0;
    }
  }

  /** An empty run data map is returned exactly by the short-circuit; everywhere
      else "nothing to reuse" is undefined. */
  lemma EmptyRunDataOnlyFromShortCircuit(
    ps: seq<string>, runData: Option<RunData>, pd: Option<PinData>, g: Graph,
    unitTest: bool, triggerNode: Option<string>)
    requires Consolidate(ps, runData, pd, g, unitTest, triggerNode).Success?
    ensures Consolidate(ps, runData, pd, g, unitTest, triggerNode).value.runData == Some(map[])
            <==> unitTest && TruthyText(triggerNode)
  {
  }

  lemma {:induction false} ReferenceStartsNeedRun(ps: seq<string>, g: Graph, rd: RunData, pd: Option<PinData>)
    ensures forall s :: s in ReferenceStarts(ps, g, rd, pd) ==> NeedsRun(rd, pd, s)
    decreases |ps|
  {
    if |ps| > 0 {
      ReferenceStartsNeedRun(ps[1..], g, rd, pd);
    }
  }

  lemma {:induction false} BranchStartInReference(ps: seq<string>, g: Graph, rd: RunData, pd: Option<PinData>, k: nat)
    requires k < |ps| && BranchStart(g, rd, pd, ps[k]).Some?
    ensures BranchStart(g, rd, pd, ps[k]).value in ReferenceStarts(ps, g, rd, pd)
    decreases |ps|
  {
    if k > 0 {
      assert ps[1..][k - 1] == ps[k];
      BranchStartInReference(ps[1..], g, rd, pd, k - 1);
    }
  }

  lemma ReusedProbesDoNotNeedRun(probe: seq<string>, rd: RunData, pd: Option<PinData>)
    ensures forall q :: q in ReusedProbes(probe, rd, pd) ==> q in rd && !NeedsRun(rd, pd, q)
  {
  }

  /** Every start node needs a run (no runs and no pinned items, or a failed
      first run), no start node is also carried, and each direct parent adds at
      most one start node. */
  lemma StartNodesNeedRun(
    ps: seq<string>, runData: Option<RunData>, pd: Option<PinData>, g: Graph,
    unitTest: bool, triggerNode: Option<string>)
    requires !(unitTest && TruthyText(triggerNode))
    requires Consolidate(ps, runData, pd, g, unitTest, triggerNode).Success?
    ensures var c := Consolidate(ps, runData, pd, g, unitTest, triggerNode).value;
            && |c.startNodeNames| <= |ps|
            && (forall s :: s in c.startNodeNames ==> runData.Some? && NeedsRun(runData.value, pd, s))
            && (c.runData.Some? ==> forall s :: s in c.startNodeNames ==> s !in c.runData.value)
  {
    if runData.Some? && |runData.value| > 0 {
      var rd := runData.value;
      WalkParentsMatchesReference(ps, g, rd, pd);
      ConsolidateMatchesReference(ps, runData, pd, g, unitTest, triggerNode);
      ReferenceStartsNeedRun(ps, g, rd, pd);
      forall k | 0 <= k < |ps| && IsProbedParent(g, ps[k])
        ensures forall q :: q in ReusedProbes(ProbeList(g, ps[k]), rd, pd) ==> !NeedsRun(rd, pd, q)
      {
        ReusedProbesDoNotNeedRun(ProbeList(g, ps[k]), rd, pd);
      }
    }
  }

  /** A carried entry is the at-most-one-element prefix of a run list of that
      node whose first run did not fail. */
  lemma CarriedRunsAreFirstRuns(
    ps: seq<string>, runData: Option<RunData>, pd: Option<PinData>, g: Graph,
    unitTest: bool, triggerNode: Option<string>)
    requires Consolidate(ps, runData, pd, g, unitTest, triggerNode).Success?
    ensures var c := Consolidate(ps, runData, pd, g, unitTest, triggerNode).value;
            c.runData.Some? ==>
              forall q :: q in c.runData.value ==>
                && runData.Some? && q in runData.value
                && !FirstRunErrored(runData.value, q)
                && |c.runData.value[q]| <= 1
                && c.runData.value[q] <= runData.value[q]
  {
    var c := Consolidate(ps, runData, pd, g, unitTest, triggerNode).value;
    if c.runData.Some? && c.runData.value != map[] {
      var rd := runData.value;
      WalkParentsMatchesReference(ps, g, rd, pd);
      forall k | 0 <= k < |ps| && IsProbedParent(g, ps[k])
        ensures forall q :: q in ReusedProbes(ProbeList(g, ps[k]), rd, pd) ==> !NeedsRun(rd, pd, q)
      {
        ReusedProbesDoNotNeedRun(ProbeList(g, ps[k]), rd, pd);
      }
    }
  }

  /** A pinned node without a run list is neither a start node nor carried
      (outside the short-circuit, whose trigger is taken as given). */
  lemma PinnedWithoutRunsIsInert(
    ps: seq<string>, runData: Option<RunData>, pd: Option<PinData>, g: Graph,
    unitTest: bool, triggerNode: Option<string>, q: string)
    requires !(unitTest && TruthyText(triggerNode))
    requires Consolidate(ps, runData, pd, g, unitTest, triggerNode).Success?
    requires runData.None? || q !in runData.value
    requires PinCount(pd, q) > 0
    ensures var c := Consolidate(ps, runData, pd, g, unitTest, triggerNode).value;
            q !in c.startNodeNames && (c.runData.Some? ==> q !in c.runData.value)
  {
    StartNodesNeedRun(ps, runData, pd, g, unitTest, triggerNode);
    CarriedRunsAreFirstRuns(ps, runData, pd, g, unitTest, triggerNode);
  }

  /** A probed node whose first run failed, reached before any other node of its
      branch needs a run, is a start node, even when it is pinned. */
  lemma ErroredFirstRunStartsItsBranch(
    ps: seq<string>, runData: Option<RunData>, pd: Option<PinData>, g: Graph,
    unitTest: bool, triggerNode: Option<string>, k: nat, j: nat)
    requires !(unitTest && TruthyText(triggerNode))
    requires runData.Some? && |runData.value| > 0 && AllKnown(g, ps)
    requires k < |ps| && IsProbedParent(g, ps[k])
    requires j < |ProbeList(g, ps[k])|
    requires forall i :: 0 <= i < j ==> !NeedsRun(runData.value, pd, ProbeList(g, ps[k])[i])
    requires FirstRunErrored(runData.value, ProbeList(g, ps[k])[j])
    ensures ProbeList(g, ps[k])[j] in Consolidate(ps, runData, pd, g, unitTest, triggerNode).value.startNodeNames
  {
    var rd := runData.value;
    var probe := ProbeList(g, ps[k]);
    var c := Cutoff(probe, rd, pd);
    assert c == j;
    assert BranchStart(g, rd, pd, ps[k]) == Some(probe[j]);
    BranchStartInReference(ps, g, rd, pd, k);
    ConsolidateMatchesReference(ps, runData, pd, g, unitTest, triggerNode);
  }

  lemma ReferenceCarriedKeysByMembership(ps: seq<string>, g: Graph, rd: RunData, pd: Option<PinData>)
    ensures forall q :: q in ReferenceCarriedKeys(ps, g, rd, pd) <==>
              exists x :: x in ps && IsProbedParent(g, x) && q in ReusedProbes(ProbeList(g, x), rd, pd)
  {
    forall q | (exists x :: x in ps && IsProbedParent(g, x) && q in ReusedProbes(ProbeList(g, x), rd, pd))
      ensures q in ReferenceCarriedKeys(ps, g, rd, pd)
    {
      var x :| x in ps && IsProbedParent(g, x) && q in ReusedProbes(ProbeList(g, x), rd, pd);
      var k :| 0 <= k < |ps| && ps[k] == x;
    }
  }

  lemma SkippedParentAddsNoStart(a: seq<string>, p: string, b: seq<string>, g: Graph, rd: RunData, pd: Option<PinData>)
    requires !IsProbedParent(g, p)
    ensures ReferenceStarts(a + [p] + b, g, rd, pd) == ReferenceStarts(a + b, g, rd, pd)
  {
    assert [p][1..] == [];
    assert ReferenceStarts([p], g, rd, pd) == [];
    calc {
      ReferenceStarts(a + [p] + b, g, rd, pd);
      { ReferenceStartsAppend(a + [p], b, g, rd, pd); }
      ReferenceStarts(a + [p], g, rd, pd) + ReferenceStarts(b, g, rd, pd);
      { ReferenceStartsAppend(a, [p], g, rd, pd); }
      ReferenceStarts(a, g, rd, pd) + [] + ReferenceStarts(b, g, rd, pd);
      { assert ReferenceStarts(a, g, rd, pd) + [] == ReferenceStarts(a, g, rd, pd); }
      ReferenceStarts(a, g, rd, pd) + ReferenceStarts(b, g, rd, pd);
      { ReferenceStartsAppend(a, b, g, rd, pd); }
      ReferenceStarts(a + b, g, rd, pd);
    }
  }

  lemma SkippedParentAddsNoCarried(a: seq<string>, p: string, b: seq<string>, g: Graph, rd: RunData, pd: Option<PinData>)
    requires !IsProbedParent(g, p)
    ensures ReferenceCarriedKeys(a + [p] + b, g, rd, pd) == ReferenceCarriedKeys(a + b, g, rd, pd)
  {
    var withP := a + [p] + b;
    ReferenceCarriedKeysByMembership(withP, g, rd, pd);
    ReferenceCarriedKeysByMembership(a + b, g, rd, pd);
    assert forall x :: x in withP && IsProbedParent(g, x) <==> x in a + b && IsProbedParent(g, x);
  }

  lemma AllKnownWithout(a: seq<string>, p: string, b: seq<string>, g: Graph)
    requires FindNode(g.nodes, p).Some? && AllKnown(g, a + b)
    ensures AllKnown(g, a + [p] + b)
  {
    var withP := a + [p] + b;
    forall i | 0 <= i < |withP| ensures FindNode(g.nodes, withP[i]).Some? {
      if i < |a| {
        assert withP[i] == (a + b)[i];
      } else if i > |a| {
        assert withP[i] == (a + b)[i - 1];
      }
    }
  }

  /** A direct parent the skip guard drops adds neither a start node nor carried
      data: the plan is the one computed without it. */
  lemma SkippedParentContributesNothing(
    a: seq<string>, p: string, b: seq<string>, runData: Option<RunData>, pd: Option<PinData>, g: Graph,
    unitTest: bool, triggerNode: Option<string>)
    requires FindNode(g.nodes, p).Some? && IsSkippedParent(FindNode(g.nodes, p).value)
    requires AllKnown(g, a + b)
    ensures Consolidate(a + [p] + b, runData, pd, g, unitTest, triggerNode)
            == Consolidate(a + b, runData, pd, g, unitTest, triggerNode)
  {
    if !(unitTest && TruthyText(triggerNode)) && runData.Some? && |runData.value| > 0 {
      var rd := runData.value;
      AllKnownWithout(a, p, b, g);
      ConsolidateMatchesReference(a + [p] + b, runData, pd, g, unitTest, triggerNode);
      ConsolidateMatchesReference(a + b, runData, pd, g, unitTest, triggerNode);
      SkippedParentAddsNoStart(a, p, b, g, rd, pd);
      SkippedParentAddsNoCarried(a, p, b, g, rd, pd);
    }
  }

  /** The skip guard is nullish coalescing: `disabled` decides when defined,
      so a unit-test trigger whose `disabled` is an explicit `false` is probed. */
  lemma SkipGuardIsNullish(n: Node)
    ensures IsSkippedParent(n) <==>
              n.disabled == Some(true) || (n.disabled.None? && n.nodeType == UnitTestTriggerType)
  {
  }
}

=== FILE: test_pairs.dfy ===
/** Pairing unit-test trigger nodes with unit-test evaluation nodes by test id:
    `runUnitTests`, `onActivationUnitTestRuns` and `onSaveUnitTestRuns` in
    useRunWorkflow.ts. Only the computed pair list is modelled; each pair is
    then handed to `runWorkflow` as a unit-test run. */
module TestPairs {
  import opened Wrappers
  import opened Js
  import opened Workflow

  /** A trigger/evaluation pair to run. */
  datatype TestPair = TestPair(triggerNodeName: string, evaluationNodeName: string)

  /** `(node.parameters.additionalFields as IDataObject).runOn…` on a node whose
      `additionalFields` is undefined throws a TypeError. */
  datatype PairError = MissingAdditionalFields(nodeName: string)

  /** Which flag decides whether an evaluation node runs. */
  datatype RunMoment = OnActivation | OnSaveActive | OnSaveInactive

  /** An enabled node (`disabled === false`) of type `nodeType` with a non-empty test id. */
  predicate IsTestNode(n: Node, nodeType: string) {
    n.nodeType == nodeType && NonEmptyString(n.parameters.testId) && n.disabled == Some(false)
  }

  /** An enabled node of type `nodeType` whose test id is strictly equal to
      `id`; an undefined `id` matches an undefined test id. */
  predicate MatchesTest(n: Node, nodeType: string, id: Option<JsValue>) {
    n.nodeType == nodeType && n.parameters.testId == id && n.disabled == Some(false)
  }

  /** Position of the first node from `k` on that `MatchesTest` (`nodes.find`). */
  function FindMatch(nodes: seq<Node>, nodeType: string, id: Option<JsValue>, k: nat): (r: Option<nat>)
    requires k <= |nodes|
    ensures r.Some? ==> k <= r.value < |nodes| && MatchesTest(nodes[r.value], nodeType, id)
                        && forall j :: k <= j < r.value ==> !MatchesTest(nodes[j], nodeType, id)
    ensures r.None? ==> forall j :: k <= j < |nodes| ==> !MatchesTest(nodes[j], nodeType, id)
    decreases |nodes| - k
  {
    if k == |nodes| then None
    else if MatchesTest(nodes[k], nodeType, id) then Some(k)
    else FindMatch(nodes, nodeType, id, k + 1)
  }

  /** The pair an anchor node forms with its first matching partner, if any.
      Anchors are triggers in `runUnitTests` and evaluation nodes otherwise. */
  function PairOf(anchor: Node, nodes: seq<Node>, anchorIsTrigger: bool): Option<TestPair>
  {
    var partnerType := if anchorIsTrigger then UnitTestType else UnitTestTriggerType;
    match FindMatch(nodes, partnerType, anchor.parameters.testId, 0)
    case None => None
    case Some(j) =>
      if anchorIsTrigger then Some(TestPair(anchor.name, nodes[j].name))
      else Some(TestPair(nodes[j].name, anchor.name))
  }

  /** Each anchor's pair, if it has one, in anchor order. */
  function PairOptions(anchors: seq<Node>, nodes: seq<Node>, anchorIsTrigger: bool): (r: seq<Option<TestPair>>)
    ensures |r| == |anchors|
    ensures forall i :: 0 <= i < |anchors| ==> r[i] == PairOf(anchors[i], nodes, anchorIsTrigger)
  {
    seq(|anchors|, i requires 0 <= i < |anchors| => PairOf(anchors[i], nodes, anchorIsTrigger))
  }

  /** The loop over the anchors from position `k`: push each pair that was
      found, skip each anchor without one. */
  function FoundFrom(found: seq<Option<TestPair>>, k: nat): seq<TestPair>
    requires k <= |found|
    decreases |found| - k
  {
    if k == |found| then []
    else OptionToSeq(found[k]) + FoundFrom(found, k + 1)
  }

  /** Positions, from `k` on and in increasing order, where a pair was found. */
  function FoundIndices(found: seq<Option<TestPair>>, k: nat): (r: seq<nat>)
    requires k <= |found|
    ensures forall m :: 0 <= m < |r| ==> k <= r[m] < |found| && found[r[m]].Some?
    ensures forall m, n :: 0 <= m < n < |r| ==> r[m] < r[n]
    decreases |found| - k
  {
    if k == |found| then []
    else (if found[k].Some? then [k] else []) + FoundIndices(found, k + 1)
  }

  /** Every position from `k` on where a pair was found is listed. */
  lemma {:induction false} FoundIndicesComplete(found: seq<Option<TestPair>>, k: nat, i: nat)
    requires k <= i < |found| && found[i].Some?
    ensures i in FoundIndices(found, k)
    decreases |found| - k
  {
    if k < i {
      FoundIndicesComplete(found, k + 1, i);
    }
  }

  /** From position `k` on, the loop yields the found pairs in order, once each. */
  lemma {:induction false} FoundFromIndexed(found: seq<Option<TestPair>>, k: nat)
    requires k <= |found|
    ensures var r := FoundFrom(found, k);
            var idx := FoundIndices(found, k);
            && |r| == |idx|
            && forall m :: 0 <= m < |idx| ==> r[m] == found[idx[m]].value
    decreases |found| - k
  {
    if k < |found| {
      FoundFromIndexed(found, k + 1);
      var rest := FoundFrom(found, k + 1);
      var idxRest := FoundIndices(found, k + 1);
      if found[k].Some? {
        var r := [found[k].value] + rest;
        var idx := [k] + idxRest;
        assert FoundFrom(found, k) == r;
        assert FoundIndices(found, k) == idx;
        forall m | 0 <= m < |idx|
          ensures r[m] == found[idx[m]].value
        {
          if m > 0 {
            assert r[m] == rest[m - 1];
            assert idx[m] == idxRest[m - 1];
          }
        }
      } else {
        assert FoundFrom(found, k) == [] + rest;
        assert FoundIndices(found, k) == [] + idxRest;
      }
    }
  }

  /** Positions, in increasing order, of the anchors that have a partner. */
  function PairedAnchors(anchors: seq<Node>, nodes: seq<Node>, anchorIsTrigger: bool): (r: seq<nat>)
    ensures forall m :: 0 <= m < |r| ==> r[m] < |anchors| && PairOf(anchors[r[m]], nodes, anchorIsTrigger).Some?
    ensures forall m, n :: 0 <= m < n < |r| ==> r[m] < r[n]
    ensures forall i :: 0 <= i < |anchors| && PairOf(anchors[i], nodes, anchorIsTrigger).Some? ==> i in r
  {
    var found := PairOptions(anchors, nodes, anchorIsTrigger);
    forall i | 0 <= i < |anchors| && PairOf(anchors[i], nodes, anchorIsTrigger).Some?
      ensures i in FoundIndices(found, 0)
    {
      FoundIndicesComplete(found, 0, i);
    }
    FoundIndices(found, 0)
  }

  /** The loop over the anchors: one pair per anchor that has a partner, in
      anchor order; anchors without a partner are skipped. */
  function PairAnchors(anchors: seq<Node>, nodes: seq<Node>, anchorIsTrigger: bool): (r: seq<TestPair>)
    ensures var idx := PairedAnchors(anchors, nodes, anchorIsTrigger);
            && |r| == |idx|
            && forall m :: 0 <= m < |idx| ==> r[m] == PairOf(anchors[idx[m]], nodes, anchorIsTrigger).value
    ensures |r| <= |anchors|
  {
    var found := PairOptions(anchors, nodes, anchorIsTrigger);
    IncreasingIsShort(FoundIndices(found, 0), |anchors|);
    FoundFromIndexed(found, 0);
    FoundFrom(found, 0)
  }

  /** The pairs are exactly those of the anchors that have a partner. */
  lemma PairAnchorsMembers(anchors: seq<Node>, nodes: seq<Node>, anchorIsTrigger: bool)
    ensures forall pair :: pair in PairAnchors(anchors, nodes, anchorIsTrigger) ==>
              exists a :: a in anchors && PairOf(a, nodes, anchorIsTrigger) == Some(pair)
    ensures forall a :: a in anchors && PairOf(a, nodes, anchorIsTrigger).Some? ==>
              PairOf(a, nodes, anchorIsTrigger).value in PairAnchors(anchors, nodes, anchorIsTrigger)
  {
    var r := PairAnchors(anchors, nodes, anchorIsTrigger);
    var idx := PairedAnchors(anchors, nodes, anchorIsTrigger);
    forall pair | pair in r
      ensures exists a :: a in anchors && PairOf(a, nodes, anchorIsTrigger) == Some(pair)
    {
      var m :| 0 <= m < |r| && r[m] == pair;
      assert anchors[idx[m]] in anchors;
    }
    forall a | a in anchors && PairOf(a, nodes, anchorIsTrigger).Some?
      ensures PairOf(a, nodes, anchorIsTrigger).value in r
    {
      var i :| 0 <= i < |anchors| && anchors[i] == a;
      PairedAnchorIsPaired(anchors, nodes, anchorIsTrigger, i);
    }
  }

  lemma PairedAnchorIsPaired(anchors: seq<Node>, nodes: seq<Node>, anchorIsTrigger: bool, i: nat)
    requires i < |anchors| && PairOf(anchors[i], nodes, anchorIsTrigger).Some?
    ensures PairOf(anchors[i], nodes, anchorIsTrigger).value in PairAnchors(anchors, nodes, anchorIsTrigger)
  {
    var idx := PairedAnchors(anchors, nodes, anchorIsTrigger);
    var m :| 0 <= m < |idx| && idx[m] == i;
    assert PairAnchors(anchors, nodes, anchorIsTrigger)[m] == PairOf(anchors[i], nodes, anchorIsTrigger).value;
  }

  /** A strictly increasing list of positions below `bound` has at most `bound` entries. */
  lemma {:induction false} IncreasingIsShort(idx: seq<nat>, bound: nat)
    requires forall m :: 0 <= m < |idx| ==> idx[m] < bound
    requires forall m, n :: 0 <= m < n < |idx| ==> idx[m] < idx[n]
    ensures |idx| <= bound
    decreases bound
  {
    if |idx| > 0 {
      var init := idx[..|idx| - 1];
      assert forall m :: 0 <= m < |init| ==> init[m] < idx[|idx| - 1];
      IncreasingIsShort(init, idx[|idx| - 1]);
    }
  }

  /** `nodes.filter(IsTestNode(·, UnitTestTriggerType))`. */
  function RunnableTriggers(nodes: seq<Node>): (r: seq<Node>)
    ensures forall n :: n in r <==> n in nodes && IsTestNode(n, UnitTestTriggerType)
    decreases |nodes|
  {
    if |nodes| == 0 then []
    else (if IsTestNode(nodes[0], UnitTestTriggerType) then [nodes[0]] else []) + RunnableTriggers(nodes[1..])
  }

  /** Whether the evaluation node's additional fields ask for a run at this
      moment: on activation and on save of an active workflow unless the flag
      is `false`; on save of an inactive workflow only if the flag is set and
      not `false`. */
  predicate WantsRun(fields: Obj, moment: RunMoment) {
    match moment
    case OnActivation => Field(fields, "runOnActivation") != Some(JsBool(false))
    case OnSaveActive => Field(fields, "runOnSaveOnActive") != Some(JsBool(false))
    case OnSaveInactive =>
      Field(fields, "runOnSaveOnInactive") != Some(JsBool(false))
      && Field(fields, "runOnSaveOnInactive") != None
  }

  /** The evaluation-node filter of the activation and save runners; the first
      candidate without additional fields makes it throw. */
  function SelectEvaluations(nodes: seq<Node>, moment: RunMoment): (r: Result<seq<Node>, PairError>)
    ensures r.Failure? <==>
              exists n :: n in nodes && IsTestNode(n, UnitTestType) && n.parameters.additionalFields.None?
    ensures r.Success? ==> forall n :: n in r.value <==>
              n in nodes && IsTestNode(n, UnitTestType) && WantsRun(n.parameters.additionalFields.value, moment)
    decreases |nodes|
  {
    if |nodes| == 0 then Success([])
    else
      var n := nodes[0];
      assert forall m :: m in nodes <==> m == n || m in nodes[1..];
      if IsTestNode(n, UnitTestType) then
        match n.parameters.additionalFields
        case None => Failure(MissingAdditionalFields(n.name))
        case Some(fields) =>
          var rest :- SelectEvaluations(nodes[1..], moment);
          Success(if WantsRun(fields, moment) then [n] + rest else rest)
      else
        SelectEvaluations(nodes[1..], moment)
  }

  /** What one node contributes to the evaluation filter. */
  function SelectOne(n: Node, moment: RunMoment): Result<seq<Node>, PairError> {
    if !IsTestNode(n, UnitTestType) then Success([])
    else match n.parameters.additionalFields
      case None => Failure(MissingAdditionalFields(n.name))
      case Some(fields) => Success(if WantsRun(fields, moment) then [n] else [])
  }

  /** Two selections in sequence: the first failure wins, otherwise the kept
      nodes are concatenated. */
  function ThenSelect(x: Result<seq<Node>, PairError>, y: Result<seq<Node>, PairError>): Result<seq<Node>, PairError> {
    match x
    case Failure(e) => Failure(e)
    case Success(xs) =>
      match y
      case Failure(e) => Failure(e)
      case Success(ys) => Success(xs + ys)
  }

  /** The evaluation filter is order-preserving and takes each node once: it
      distributes over concatenation, stopping at the first node that throws
      (with `SelectEvaluationsSingle`, which fixes what one node contributes). */
  lemma {:induction false} SelectEvaluationsAppend(a: seq<Node>, b: seq<Node>, moment: RunMoment)
    ensures SelectEvaluations(a + b, moment) == ThenSelect(SelectEvaluations(a, moment), SelectEvaluations(b, moment))
    decreases |a|
  {
    var rest := SelectEvaluations(b, moment);
    if |a| == 0 {
      assert a + b == b;
      assert SelectEvaluations(a, moment) == Success([]);
      if rest.Success? {
        assert [] + rest.value == rest.value;
      }
    } else {
      var ab := a + b;
      var one := SelectOne(a[0], moment);
      assert ab[0] == a[0];
      assert ab[1..] == a[1..] + b;
      SelectEvaluationsAppend(a[1..], b, moment);
      SelectEvaluationsStep(a, moment);
      SelectEvaluationsStep(ab, moment);
      ThenSelectAssociative(one, SelectEvaluations(a[1..], moment), rest);
    }
  }

  /** One step of the filter: the first node's contribution, then the rest. */
  lemma SelectEvaluationsStep(nodes: seq<Node>, moment: RunMoment)
    requires |nodes| > 0
    ensures SelectEvaluations(nodes, moment) == ThenSelect(SelectOne(nodes[0], moment), SelectEvaluations(nodes[1..], moment))
  {
    var tail := SelectEvaluations(nodes[1..], moment);
    if tail.Success? {
      assert [] + tail.value == tail.value;
    }
  }

  lemma ThenSelectAssociative(x: Result<seq<Node>, PairError>, y: Result<seq<Node>, PairError>,
                              z: Result<seq<Node>, PairError>)
    ensures ThenSelect(x, ThenSelect(y, z)) == ThenSelect(ThenSelect(x, y), z)
  {
    if x.Success? && y.Success? && z.Success? {
      assert x.value + (y.value + z.value) == (x.value + y.value) + z.value;
    }
  }

  /** A single node contributes exactly `SelectOne`. */
  lemma SelectEvaluationsSingle(n: Node, moment: RunMoment)
    ensures SelectEvaluations([n], moment) == SelectOne(n, moment)
  {
    assert [n][1..] == [];
    assert SelectEvaluations([n][1..], moment) == Success([]);
    assert [n] + [] == [n];
  }

  /** `runUnitTests`: every runnable trigger with its first matching evaluation node. */
  function UnitTestPairs(nodes: seq<Node>): seq<TestPair> {
    PairAnchors(RunnableTriggers(nodes), nodes, true)
  }

  /** `onActivationUnitTestRuns`. */
  function ActivationPairs(nodes: seq<Node>): Result<seq<TestPair>, PairError> {
    PairAnchorsFor(nodes, OnActivation)
  }

  /** `onSaveUnitTestRuns`: the flag consulted depends on whether the workflow is active. */
  function SavePairs(nodes: seq<Node>, isWorkflowActive: bool): Result<seq<TestPair>, PairError> {
    PairAnchorsFor(nodes, if isWorkflowActive then OnSaveActive else OnSaveInactive)
  }

  /** A pair exists for an anchor exactly when an enabled partner of the other
      type carries the same test id, and it names the first such partner. */
  lemma PairOfIsFirstMatch(anchor: Node, nodes: seq<Node>, anchorIsTrigger: bool)
    ensures var partnerType := if anchorIsTrigger then UnitTestType else UnitTestTriggerType;
            var id := anchor.parameters.testId;
            && (PairOf(anchor, nodes, anchorIsTrigger).Some? <==>
                  exists j :: 0 <= j < |nodes| && MatchesTest(nodes[j], partnerType, id))
            && (PairOf(anchor, nodes, anchorIsTrigger).Some? ==>
                  exists j :: 0 <= j < |nodes| && MatchesTest(nodes[j], partnerType, id)
                    && (forall i :: 0 <= i < j ==> !MatchesTest(nodes[i], partnerType, id))
                    && PairOf(anchor, nodes, anchorIsTrigger).value
                       == (if anchorIsTrigger then TestPair(anchor.name, nodes[j].name)
                           else TestPair(nodes[j].name, anchor.name)))
  {
  }

  /** `runUnitTests` pairs exactly the enabled triggers with a non-empty test id
      that have a matching enabled evaluation node; unmatched triggers are skipped. */
  lemma UnitTestPairsAreMatchedTriggers(nodes: seq<Node>)
    ensures forall pair :: pair in UnitTestPairs(nodes) ==>
              exists t :: t in nodes && IsTestNode(t, UnitTestTriggerType) && PairOf(t, nodes, true) == Some(pair)
    ensures forall t :: t in nodes && IsTestNode(t, UnitTestTriggerType) && PairOf(t, nodes, true).Some? ==>
              PairOf(t, nodes, true).value in UnitTestPairs(nodes)
    ensures var triggers := RunnableTriggers(nodes);
            var idx := PairedAnchors(triggers, nodes, true);
            && |UnitTestPairs(nodes)| == |idx|
            && forall m :: 0 <= m < |idx| ==> UnitTestPairs(nodes)[m] == PairOf(triggers[idx[m]], nodes, true).value
    ensures |UnitTestPairs(nodes)| <= |nodes|
  {
    var triggers := RunnableTriggers(nodes);
    PairAnchorsMembers(triggers, nodes, true);
    assert |triggers| <= |nodes| by {
      RunnableTriggersShorter(nodes);
    }
  }

  /** `RunnableTriggers` is the order-preserving filter: it distributes over
      concatenation and keeps a single node exactly when it is a test trigger. */
  lemma {:induction false} RunnableTriggersAppend(a: seq<Node>, b: seq<Node>)
    ensures RunnableTriggers(a + b) == RunnableTriggers(a) + RunnableTriggers(b)
    ensures |a| == 1 ==> RunnableTriggers(a) == (if IsTestNode(a[0], UnitTestTriggerType) then a else [])
    decreases |a|
  {
    if |a| == 0 {
      assert a + b == b;
    } else {
      assert (a + b)[1..] == a[1..] + b;
      RunnableTriggersAppend(a[1..], b);
      if |a| == 1 {
        assert a[1..] == [];
      }
    }
  }

  lemma {:induction false} RunnableTriggersShorter(nodes: seq<Node>)
    ensures |RunnableTriggers(nodes)| <= |nodes|
    decreases |nodes|
  {
    if |nodes| > 0 {
      RunnableTriggersShorter(nodes[1..]);
    }
  }

  /** On save of an inactive workflow an evaluation node runs only when
      `runOnSaveOnInactive` is explicitly set to something other than `false`;
      on activation and on save of an active workflow only `false` opts out. */
  lemma SaveFlagsDecideSelection(nodes: seq<Node>, n: Node)
    requires n in nodes && IsTestNode(n, UnitTestType) && n.parameters.additionalFields.Some?
    ensures var fields := n.parameters.additionalFields.value;
            && (SelectEvaluations(nodes, OnSaveInactive).Success? ==>
                  (n in SelectEvaluations(nodes, OnSaveInactive).value <==>
                     "runOnSaveOnInactive" in fields && fields["runOnSaveOnInactive"] != JsBool(false)))
            && (SelectEvaluations(nodes, OnSaveActive).Success? ==>
                  (n in SelectEvaluations(nodes, OnSaveActive).value <==>
                     !("runOnSaveOnActive" in fields && fields["runOnSaveOnActive"] == JsBool(false))))
            && (SelectEvaluations(nodes, OnActivation).Success? ==>
                  (n in SelectEvaluations(nodes, OnActivation).value <==>
                     !("runOnActivation" in fields && fields["runOnActivation"] == JsBool(false))))
  {
  }

  /** With no flag set, a test runs on activation and on save of an active
      workflow but not on save of an inactive one. */
  lemma DefaultRunMoments()
    ensures WantsRun(map[], OnActivation)
    ensures WantsRun(map[], OnSaveActive)
    ensures !WantsRun(map[], OnSaveInactive)
  {
  }

  /** The activation and save runners pair exactly the enabled evaluation nodes
      whose flag asks for a run and that have a matching enabled trigger; they
      throw instead when some enabled evaluation node has no additional fields. */
  lemma EvaluationPairsAreMatchedEvaluations(nodes: seq<Node>, moment: RunMoment)
    ensures var r := PairAnchorsFor(nodes, moment);
            && (r.Failure? <==>
                  exists n :: n in nodes && IsTestNode(n, UnitTestType) && n.parameters.additionalFields.None?)
            && (r.Success? ==> forall pair :: pair in r.value ==>
                  exists n :: && n in nodes && IsTestNode(n, UnitTestType)
                              && WantsRun(n.parameters.additionalFields.value, moment)
                              && PairOf(n, nodes, false) == Some(pair))
            && (r.Success? ==> forall n ::
                  (&& n in nodes && IsTestNode(n, UnitTestType)
                   && WantsRun(n.parameters.additionalFields.value, moment) && PairOf(n, nodes, false).Some?)
                  ==> PairOf(n, nodes, false).value in r.value)
    ensures var r := PairAnchorsFor(nodes, moment);
            r.Success? ==>
              var evaluations := SelectEvaluations(nodes, moment).value;
              var idx := PairedAnchors(evaluations, nodes, false);
              && |r.value| == |idx|
              && forall m :: 0 <= m < |idx| ==> r.value[m] == PairOf(evaluations[idx[m]], nodes, false).value
    ensures moment == OnActivation ==> ActivationPairs(nodes) == PairAnchorsFor(nodes, moment)
    ensures moment != OnActivation ==> SavePairs(nodes, moment == OnSaveActive) == PairAnchorsFor(nodes, moment)
  {
    var selected := SelectEvaluations(nodes, moment);
    if selected.Success? {
      PairAnchorsMembers(selected.value, nodes, false);
    }
  }

  /** The pairs an evaluation-anchored runner computes for `moment`. */
  function PairAnchorsFor(nodes: seq<Node>, moment: RunMoment): Result<seq<TestPair>, PairError> {
    var evaluations :- SelectEvaluations(nodes, moment);
    Success(PairAnchors(evaluations, nodes, false))
  }
}

=== FILE: unit_test_node.dfy ===
/** The unit-test evaluation node's `execute`: every input item is checked, the
    failing ones are collected for the on-fail output, all finished ones for
    the clean-up output, and the returned outputs follow the node's ports. */
module UnitTestNode {
  import opened Wrappers
  import opened Js
  import opened Workflow
  import opened UnitTestPorts

  /** The operation that compares an evaluation expression. */
  const ComparisonEvaluation: string := "comparisonEvaluation"
  /** The key under which the outcome is written into an output item. */
  const PassKey: string := "unitTestPass"

  /** The parameters `execute` reads for one item. `evaluations` is the resolved
      expression, or the message of the error resolving it raised;
      `additionalFields` is `None` when the parameter resolves to `undefined`. */
  datatype ItemParams = ItemParams(
    operation: Option<JsValue>,
    evaluations: Result<JsValue, string>,
    additionalFields: Option<Obj>)

  /** One input item with the parameters resolved for it. */
  datatype InputItem = InputItem(json: Obj, params: ItemParams)

  /** One output item. */
  datatype OutputItem = OutputItem(json: Obj)

  /** What one item contributes when it finishes without an error. */
  datatype ItemStep = ItemStep(failed: Option<OutputItem>, cleanUp: Option<OutputItem>)

  /** Why an item stopped the execution. */
  datatype ItemFailure =
    | TestFailed
    | ParameterError(message: string)
    | MissingAdditionalFields

  /** The error `execute` raises: the item's failure with its index attached. */
  datatype ExecError = ExecError(kind: ItemFailure, itemIndex: nat)

  /** `{ ...json, unitTestPass: pass ? 'true' : 'false' }`. */
  function Tag(json: Obj, pass: bool): (r: OutputItem)
    ensures r.json.Keys == json.Keys + {PassKey}
    ensures r.json[PassKey] == JsString(if pass then "true" else "false")
  {
    OutputItem(json[PassKey := JsString(if pass then "true" else "false")])
  }

  /** Tagging leaves every other field of the item as it was. */
  lemma TagKeepsFields(json: Obj, pass: bool, k: string)
    requires k in json && k != PassKey
    ensures k in Tag(json, pass).json && Tag(json, pass).json[k] == json[k]
  {
  }

  predicate IsComparison(item: InputItem) {
    item.params.operation == Some(JsString(ComparisonEvaluation))
  }

  /** A comparison item whose evaluation resolved to a falsy value. */
  predicate FailsComparison(item: InputItem) {
    IsComparison(item) && item.params.evaluations.Success? && !Truthy(item.params.evaluations.value)
  }

  /** A comparison item whose evaluation resolved to a truthy value. */
  predicate PassesComparison(item: InputItem) {
    IsComparison(item) && item.params.evaluations.Success? && Truthy(item.params.evaluations.value)
  }

  /** The body of the item loop, without `continueOnFail`. */
  function ProcessItem(item: InputItem): Result<ItemStep, ItemFailure>
  {
    match item.params.additionalFields
    case None => Failure(MissingAdditionalFields)
    case Some(fields) =>
      var throwOnFail := if TruthyOpt(Field(fields, "errorOnFail")) then true else ThrowOnFailConst;
      var cleanUpEnabled := if TruthyOpt(Field(fields, "isCleanUpBranchEnabled")) then true else CleanUpBranchDefault;
      if IsComparison(item) then
        match item.params.evaluations
        case Failure(message) => Failure(ParameterError(message))
        case Success(pass) =>
          if !Truthy(pass) && throwOnFail then Failure(TestFailed)
          else
            var failed := if Truthy(pass) then None else Some(Tag(item.json, false));
            Success(ItemStep(failed, if cleanUpEnabled then Some(Tag(item.json, Truthy(pass))) else None))
      else
        Success(ItemStep(None, if cleanUpEnabled then Some(Tag(item.json, false)) else None))
  }

  /** What one item does: a missing `additionalFields` raises; a falsy comparison
      goes to the failed list tagged false and raises Test Failed when
      `errorOnFail` is truthy; a finished item goes to the clean-up list, tagged
      with its pass value, exactly when its clean-up flag is truthy. */
  lemma ProcessItemOutcome(item: InputItem)
    ensures item.params.additionalFields.None? ==> ProcessItem(item) == Failure(MissingAdditionalFields)
    ensures ProcessItem(item).Success? ==> (ProcessItem(item).value.failed.Some? <==> FailsComparison(item))
    ensures ProcessItem(item).Success? && ProcessItem(item).value.failed.Some? ==> ProcessItem(item).value.failed.value == Tag(item.json, false)
    ensures ProcessItem(item).Success? ==>
              (ProcessItem(item).value.cleanUp.Some? <==>
                 TruthyOpt(OptionalField(item.params.additionalFields, "isCleanUpBranchEnabled")))
    ensures ProcessItem(item).Success? && ProcessItem(item).value.cleanUp.Some? ==>
              ProcessItem(item).value.cleanUp.value == Tag(item.json, PassesComparison(item))
    ensures ProcessItem(item) == Failure(TestFailed) <==>
              FailsComparison(item) && TruthyOpt(OptionalField(item.params.additionalFields, "errorOnFail"))
    ensures !IsComparison(item) ==> ProcessItem(item).Success? || ProcessItem(item) == Failure(MissingAdditionalFields)
    ensures ProcessItem(item).Failure? <==>
              || item.params.additionalFields.None?
              || (IsComparison(item) && item.params.evaluations.Failure?)
              || (FailsComparison(item) && TruthyOpt(OptionalField(item.params.additionalFields, "errorOnFail")))
    ensures item.params.additionalFields.Some? && IsComparison(item) && item.params.evaluations.Failure? ==>
              ProcessItem(item) == Failure(ParameterError(item.params.evaluations.error))
  {
  }

  /** `k` is the index of the first item that fails. */
  predicate FirstFailure(items: seq<InputItem>, k: nat) {
    && k < |items|
    && ProcessItem(items[k]).Failure?
    && forall j :: 0 <= j < k ==> ProcessItem(items[j]).Success?
  }

  /** What an item adds to the on-fail output. */
  function FailedOf(item: InputItem): seq<OutputItem> {
    match ProcessItem(item)
    case Success(step) => OptionToSeq(step.failed)
    case Failure(_) => []
  }

  /** What an item adds to the clean-up output. */
  function CleanUpOf(item: InputItem): seq<OutputItem> {
    match ProcessItem(item)
    case Success(step) => OptionToSeq(step.cleanUp)
    case Failure(_) => []
  }

  /** The on-fail output accumulated over `items`, in order. */
  function FailedItems(items: seq<InputItem>): seq<OutputItem>
    decreases |items|
  {
    if |items| == 0 then [] else FailedItems(items[..|items| - 1]) + FailedOf(items[|items| - 1])
  }

  /** The clean-up output accumulated over `items`, in order. */
  function CleanUpItems(items: seq<InputItem>): seq<OutputItem>
    decreases |items|
  {
    if |items| == 0 then [] else CleanUpItems(items[..|items| - 1]) + CleanUpOf(items[|items| - 1])
  }

  /** The outputs returned for the node's ports: the failed items alone when only
      the on-fail port exists, the clean-up items alone when only the clean-up
      port exists, and both (clean-up first) otherwise. */
  function SelectShape(ports: seq<Port>, failed: seq<OutputItem>, cleanUp: seq<OutputItem>)
    : (r: seq<seq<OutputItem>>)
    ensures !HasBranch(ports, CleanUpName) && HasBranch(ports, OnFailName) ==> r == [failed]
    ensures HasBranch(ports, CleanUpName) && !HasBranch(ports, OnFailName) ==> r == [cleanUp]
    ensures HasBranch(ports, CleanUpName) == HasBranch(ports, OnFailName) ==> r == [cleanUp, failed]
  {
    var cleanUpExists := HasBranch(ports, CleanUpName);
    var onFailExists := HasBranch(ports, OnFailName);
    if !cleanUpExists && onFailExists then [failed]
    else if cleanUpExists && !onFailExists then [cleanUp]
    else [cleanUp, failed]
  }

  /** `execute`: the items are processed in order and the first failing item
      aborts with its index; otherwise the outputs follow the node's ports. */
  method Execute(items: seq<InputItem>, nodeParameters: Params)
    returns (r: Result<seq<seq<OutputItem>>, ExecError>)
    ensures r.Failure? <==> exists i :: 0 <= i < |items| && ProcessItem(items[i]).Failure?
    ensures r.Failure? ==> FirstFailure(items, r.error.itemIndex)
                           && ProcessItem(items[r.error.itemIndex]) == Failure(r.error.kind)
    ensures r.Success? ==>
              r.value == SelectShape(NodeOutputs(nodeParameters, CleanUpBranchDefault, FailBranchDefault),
                                     FailedItems(items), CleanUpItems(items))
  {
    var failed: seq<OutputItem> := [];
    var cleanUp: seq<OutputItem> := [];
    var itemIndex := 0;
    while itemIndex < |items|
      invariant 0 <= itemIndex <= |items|
      invariant forall j :: 0 <= j < itemIndex ==> ProcessItem(items[j]).Success?
      invariant failed == FailedItems(items[..itemIndex])
      invariant cleanUp == CleanUpItems(items[..itemIndex])
    {
      var step := ProcessItem(items[itemIndex]);
      if step.Failure? {
        return Failure(ExecError(step.error, itemIndex));
      }
      assert items[..itemIndex + 1][..itemIndex] == items[..itemIndex];
      assert forall j :: 0 <= j < itemIndex + 1 ==> ProcessItem(items[j]).Success?;
      failed := failed + OptionToSeq(step.value.failed);
      cleanUp := cleanUp + OptionToSeq(step.value.cleanUp);
      itemIndex := itemIndex + 1;
    }
    assert items[..itemIndex] == items;
    var outputBranches := NodeOutputs(nodeParameters, CleanUpBranchDefault, FailBranchDefault);
    r := Success(SelectShape(outputBranches, failed, cleanUp));
  }

  /** The port selection in terms of the node's flags: clean-up only gives the
      clean-up items, on-fail only the failed items, anything else both. */
  lemma ShapeFollowsFlags(nodeParameters: Params, failed: seq<OutputItem>, cleanUp: seq<OutputItem>)
    ensures var c := CleanUpEnabled(nodeParameters, CleanUpBranchDefault);
            var f := FailEnabled(nodeParameters, FailBranchDefault);
            var r := SelectShape(NodeOutputs(nodeParameters, CleanUpBranchDefault, FailBranchDefault), failed, cleanUp);
            && (!c && f ==> r == [failed])
            && (c && !f ==> r == [cleanUp])
            && (c == f ==> r == [cleanUp, failed])
  {
  }

  /** A node whose additional fields were never set returns only the failed items. */
  lemma DefaultReturnsFailedOnly(nodeParameters: Params, failed: seq<OutputItem>, cleanUp: seq<OutputItem>)
    requires nodeParameters.additionalFields.None? || nodeParameters.additionalFields == Some(map[])
    ensures SelectShape(NodeOutputs(nodeParameters, CleanUpBranchDefault, FailBranchDefault), failed, cleanUp)
            == [failed]
  {
    DefaultOutputsAreOnFail(nodeParameters);
    assert HasBranch([OnFailPort], OnFailName) by {
      assert [OnFailPort][0].displayName == Some(OnFailName);
    }
  }

  /** The items of `items` whose comparison failed, in order (a reference definition). */
  function Falsy(items: seq<InputItem>): (r: seq<InputItem>)
    ensures |r| <= |items|
    ensures forall x :: x in r ==> x in items && FailsComparison(x)
  {
    if |items| == 0 then []
    else (if FailsComparison(items[0]) then [items[0]] else []) + Falsy(items[1..])
  }

  /** Each item tagged as not passed. */
  function TagFailed(items: seq<InputItem>): (r: seq<OutputItem>)
    ensures |r| == |items|
    ensures forall i :: 0 <= i < |items| ==> r[i] == Tag(items[i].json, false)
  {
    if |items| == 0 then [] else [Tag(items[0].json, false)] + TagFailed(items[1..])
  }

  lemma {:induction false} FalsySnoc(items: seq<InputItem>, x: InputItem)
    ensures Falsy(items + [x]) == Falsy(items) + (if FailsComparison(x) then [x] else [])
    decreases |items|
  {
    var tail := if FailsComparison(x) then [x] else [];
    if |items| == 0 {
      assert items + [x] == [x];
      assert [x][1..] == [];
      assert Falsy([x]) == tail + Falsy([]);
    } else {
      var all := items + [x];
      var head := if FailsComparison(items[0]) then [items[0]] else [];
      assert all[0] == items[0];
      assert all[1..] == items[1..] + [x];
      FalsySnoc(items[1..], x);
      calc {
        Falsy(all);
        head + Falsy(all[1..]);
        head + (Falsy(items[1..]) + tail);
        (head + Falsy(items[1..])) + tail;
        Falsy(items) + tail;
      }
    }
  }

  lemma FalsyDropLast(items: seq<InputItem>)
    requires |items| > 0
    ensures var last := items[|items| - 1];
            Falsy(items) == Falsy(items[..|items| - 1]) + (if FailsComparison(last) then [last] else [])
  {
    assert items == items[..|items| - 1] + [items[|items| - 1]];
    FalsySnoc(items[..|items| - 1], items[|items| - 1]);
  }

  lemma TagFailedAppend(a: seq<InputItem>, b: seq<InputItem>)
    ensures TagFailed(a + b) == TagFailed(a) + TagFailed(b)
  {
    assert forall i :: 0 <= i < |a| ==> (a + b)[i] == a[i];
    assert forall i :: |a| <= i < |a| + |b| ==> (a + b)[i] == b[i - |a|];
  }

  /** When no item fails, the on-fail output is exactly the items whose
      comparison evaluated falsy, in input order, each tagged as not passed. */
  lemma {:induction false} FailedItemsAreFalsyComparisons(items: seq<InputItem>)
    requires forall i :: 0 <= i < |items| ==> ProcessItem(items[i]).Success?
    ensures FailedItems(items) == TagFailed(Falsy(items))
    decreases |items|
  {
    if |items| > 0 {
      var init := items[..|items| - 1];
      var last := items[|items| - 1];
      assert forall i :: 0 <= i < |init| ==> init[i] == items[i];
      FailedItemsAreFalsyComparisons(init);
      FalsyDropLast(items);
      TagFailedAppend(Falsy(init), if FailsComparison(last) then [last] else []);
      ProcessItemOutcome(last);
      assert FailedOf(last) == TagFailed(if FailsComparison(last) then [last] else []);
    }
  }

  /** Items of any other operation never reach the on-fail output. */
  lemma {:induction false} OtherOperationsNeverFail(items: seq<InputItem>)
    requires forall i :: 0 <= i < |items| ==> !IsComparison(items[i])
    ensures FailedItems(items) == []
    decreases |items|
  {
    if |items| > 0 {
      var init := items[..|items| - 1];
      assert forall i :: 0 <= i < |init| ==> init[i] == items[i];
      OtherOperationsNeverFail(init);
      var last := items[|items| - 1];
      ProcessItemOutcome(last);
      assert !FailsComparison(last);
    }
  }

  /** Every item, in order, tagged with whether its comparison passed. */
  function TagPassed(items: seq<InputItem>): (r: seq<OutputItem>)
    ensures |r| == |items|
    ensures forall i :: 0 <= i < |items| ==> r[i] == Tag(items[i].json, PassesComparison(items[i]))
    decreases |items|
  {
    if |items| == 0 then []
    else TagPassed(items[..|items| - 1]) + [Tag(items[|items| - 1].json, PassesComparison(items[|items| - 1]))]
  }

  /** When every item finishes with clean-up enabled, the clean-up output holds
      every item, in order, tagged with whether it passed. */
  lemma {:induction false} CleanUpKeepsEveryItem(items: seq<InputItem>)
    requires forall i :: 0 <= i < |items| ==> ProcessItem(items[i]).Success?
    requires forall i :: 0 <= i < |items| ==>
               TruthyOpt(OptionalField(items[i].params.additionalFields, "isCleanUpBranchEnabled"))
    ensures CleanUpItems(items) == TagPassed(items)
    decreases |items|
  {
    if |items| > 0 {
      var init := items[..|items| - 1];
      var last := items[|items| - 1];
      assert forall i :: 0 <= i < |init| ==> init[i] == items[i];
      CleanUpKeepsEveryItem(init);
      ProcessItemOutcome(last);
      assert CleanUpOf(last) == [Tag(last.json, PassesComparison(last))];
    }
  }
}

=== FILE: unit_test_ports.dfy ===
/** The unit-test node's helpers: the input and output ports it shows for its
    parameters, and the trigger's conversion of key/value and JSON test data
    into output items. */
module UnitTestPorts {
  import opened Wrappers
  import opened Js
  import opened Workflow

  /** `NodeConnectionType.Main`. */
  const MainConnection: string := "main"
  /** The operation whose inputs are split into a pass and a fail branch. */
  const BooleanInputComparison: string := "booleanInputComparison"
  /** `throwOnFailConst`: a failed test does not raise unless asked to. */
  const ThrowOnFailConst: bool := false
  /** `cleanUpBranchDefault`: the clean-up output is off unless enabled. */
  const CleanUpBranchDefault: bool := false
  /** `failBranchDefault`: the on-fail output is on unless disabled. */
  const FailBranchDefault: bool := true
  const CleanUpName: string := "Clean Up"
  const OnFailName: string := "On Fail"

  /** One input or output port of a node. */
  datatype Port = Port(portType: string, displayName: Option<string>, category: Option<string>)

  /** Whether some port in `ports` is displayed as `name` (`ports.find(...) !== undefined`). */
  predicate HasBranch(ports: seq<Port>, name: string) {
    exists i :: 0 <= i < |ports| && ports[i].displayName == Some(name)
  }

  /** `nodeInputs`: a pass and a fail input for the boolean comparison, one plain input otherwise. */
  function NodeInputs(parameters: Params): (r: seq<Port>)
    ensures forall i :: 0 <= i < |r| ==> r[i].portType == MainConnection && r[i].category.None?
    ensures |r| == 2 <==> parameters.operation == Some(JsString(BooleanInputComparison))
    ensures |r| == 2 ==> r[0].displayName == Some("pass") && r[1].displayName == Some("fail")
    ensures |r| != 2 ==> r == [Port(MainConnection, None, None)]
  {
    if parameters.operation == Some(JsString(BooleanInputComparison)) then
      [Port(MainConnection, Some("pass"), None), Port(MainConnection, Some("fail"), None)]
    else
      [Port(MainConnection, None, None)]
  }

  /** The inputs depend on the operation alone: no other parameter changes them. */
  lemma InputsFollowOperation(p: Params, q: Params)
    requires p.operation == q.operation
    ensures NodeInputs(p) == NodeInputs(q)
    ensures HasBranch(NodeInputs(p), "fail") <==> p.operation == Some(JsString(BooleanInputComparison))
  {
    if p.operation != Some(JsString(BooleanInputComparison)) {
      assert NodeInputs(p)[0].displayName.None?;
    }
  }

  /** Whether the optional branch behind `additionalFields?.[key]` is enabled:
      a defined value decides by its truthiness, `undefined` falls back to `default`. */
  function BranchEnabled(additionalFields: Option<Obj>, key: string, default: bool): (r: bool)
    ensures OptionalField(additionalFields, key).None? ==> r == default
    ensures OptionalField(additionalFields, key).Some? ==>
              (r <==> Truthy(OptionalField(additionalFields, key).value))
  {
    var input := OptionalField(additionalFields, key);
    if input.Some? then Truthy(input.value) else default
  }

  predicate CleanUpEnabled(parameters: Params, cleanUpDefault: bool) {
    BranchEnabled(parameters.additionalFields, "isCleanUpBranchEnabled", cleanUpDefault)
  }

  predicate FailEnabled(parameters: Params, failDefault: bool) {
    BranchEnabled(parameters.additionalFields, "isFailBranchEnabled", failDefault)
  }

  const CleanUpPort: Port := Port(MainConnection, Some(CleanUpName), None)
  const OnFailPort: Port := Port(MainConnection, Some(OnFailName), Some("error"))

  /** `nodeOutputs`: the clean-up output (if enabled) followed by the on-fail output (if enabled). */
  function NodeOutputs(parameters: Params, cleanUpDefault: bool, failDefault: bool): (r: seq<Port>)
    ensures |r| == (if CleanUpEnabled(parameters, cleanUpDefault) then 1 else 0)
                   + (if FailEnabled(parameters, failDefault) then 1 else 0)
    ensures HasBranch(r, CleanUpName) <==> CleanUpEnabled(parameters, cleanUpDefault)
    ensures HasBranch(r, OnFailName) <==> FailEnabled(parameters, failDefault)
    ensures forall i :: 0 <= i < |r| ==> r[i] == CleanUpPort || r[i] == OnFailPort
    ensures forall i :: 0 <= i < |r| && r[i].displayName == Some(OnFailName) ==> r[i].category == Some("error")
    ensures forall i, j :: 0 <= i < |r| && 0 <= j < |r| && r[i] == CleanUpPort && r[j] == OnFailPort ==> i < j
  {
    var r := (if CleanUpEnabled(parameters, cleanUpDefault) then [CleanUpPort] else [])
             + (if FailEnabled(parameters, failDefault) then [OnFailPort] else []);
    assert CleanUpEnabled(parameters, cleanUpDefault) ==> r[0] == CleanUpPort;
    assert FailEnabled(parameters, failDefault) ==> r[|r| - 1] == OnFailPort;
    r
  }

  /** The supplied defaults matter only for a flag the user left undefined. */
  lemma DefaultOnlyWhenUndefined(parameters: Params, c1: bool, f1: bool, c2: bool, f2: bool)
    ensures OptionalField(parameters.additionalFields, "isCleanUpBranchEnabled").Some?
            && OptionalField(parameters.additionalFields, "isFailBranchEnabled").Some?
            ==> NodeOutputs(parameters, c1, f1) == NodeOutputs(parameters, c2, f2)
    ensures OptionalField(parameters.additionalFields, "isCleanUpBranchEnabled").None?
            && OptionalField(parameters.additionalFields, "isFailBranchEnabled").None?
            ==> NodeOutputs(parameters, c1, f1)
                == (if c1 then [CleanUpPort] else []) + (if f1 then [OnFailPort] else [])
  {
  }

  /** With the module's defaults and no flag set, the node has exactly the on-fail output. */
  lemma DefaultOutputsAreOnFail(parameters: Params)
    requires parameters.additionalFields.None? || parameters.additionalFields == Some(map[])
    ensures NodeOutputs(parameters, CleanUpBranchDefault, FailBranchDefault) == [OnFailPort]
  {
  }

  /** One key/value row of the trigger's test data. */
  datatype KeyValue = KeyValue(key: string, value: string)

  /** One key/value group. `testRun` is `None` when it is the empty object `{}`,
      otherwise its `keyValueData` rows. */
  datatype KeyValueGroup = KeyValueGroup(testRun: Option<seq<KeyValue>>)

  /** One JSON test-data row: the text to parse. */
  datatype RawJsonInput = RawJsonInput(jsonTestRun: string)

  /** One item the trigger emits. */
  datatype TriggerReturnData = TriggerReturnData(json: Obj)

  /** The object built by assigning every row in order (`jsonObject[key] = value`);
      a row keyed `__proto__` leaves the object unchanged. */
  function AssignAll(rows: seq<KeyValue>): (r: Obj)
    ensures |rows| > 0 && rows[|rows| - 1].key != ProtoKey ==>
              && rows[|rows| - 1].key in r
              && r[rows[|rows| - 1].key] == JsString(rows[|rows| - 1].value)
    ensures ProtoKey !in r
    decreases |rows|
  {
    if |rows| == 0 then map[]
    else
      var last := rows[|rows| - 1];
      var init := AssignAll(rows[..|rows| - 1]);
      if last.key == ProtoKey then init else init[last.key := JsString(last.value)]
  }

  /** The object holds exactly the keys of the rows, `__proto__` aside. */
  lemma {:induction false} AssignAllKeys(rows: seq<KeyValue>, k: string)
    ensures k in AssignAll(rows) <==> k != ProtoKey && exists i :: 0 <= i < |rows| && rows[i].key == k
    decreases |rows|
  {
    if |rows| > 0 {
      var init := rows[..|rows| - 1];
      AssignAllKeys(init, k);
      if exists i :: 0 <= i < |init| && init[i].key == k {
        var i :| 0 <= i < |init| && init[i].key == k;
        assert rows[i] == init[i];
      }
      if exists i :: 0 <= i < |rows| && rows[i].key == k {
        var i :| 0 <= i < |rows| && rows[i].key == k;
        if i < |rows| - 1 {
          assert init[i] == rows[i];
        }
      }
    }
  }

  /** Each key other than `__proto__` carries the value of the last row that
      names it: a later duplicate overwrites an earlier one. */
  lemma {:induction false} AssignAllLastWins(rows: seq<KeyValue>, i: nat)
    requires i < |rows|
    requires forall j :: i < j < |rows| ==> rows[j].key != rows[i].key
    ensures rows[i].key in AssignAll(rows) <==> rows[i].key != ProtoKey
    ensures rows[i].key != ProtoKey ==> AssignAll(rows)[rows[i].key] == JsString(rows[i].value)
    decreases |rows|
  {
    if i < |rows| - 1 {
      var init := rows[..|rows| - 1];
      assert init[i] == rows[i];
      assert forall j :: i < j < |init| ==> init[j] == rows[j];
      AssignAllLastWins(init, i);
    }
  }

  /** Row `j` is the last row naming its key. */
  predicate LastOfKey(rows: seq<KeyValue>, j: int) {
    0 <= j < |rows| && forall k :: j < k < |rows| ==> rows[k].key != rows[j].key
  }

  /** The full characterisation of `AssignAll`, for every key at once. */
  lemma AssignAllSpec(rows: seq<KeyValue>)
    ensures forall k :: k in AssignAll(rows) <==> k != ProtoKey && exists i :: 0 <= i < |rows| && rows[i].key == k
    ensures forall i :: 0 <= i < |rows| && rows[i].key != ProtoKey && (forall j :: i < j < |rows| ==> rows[j].key != rows[i].key) ==>
              rows[i].key in AssignAll(rows) && AssignAll(rows)[rows[i].key] == JsString(rows[i].value)
  {
    forall k ensures k in AssignAll(rows) <==> k != ProtoKey && exists i :: 0 <= i < |rows| && rows[i].key == k {
      AssignAllKeys(rows, k);
    }
    forall i | 0 <= i < |rows| && rows[i].key != ProtoKey && (forall j :: i < j < |rows| ==> rows[j].key != rows[i].key)
      ensures rows[i].key in AssignAll(rows) && AssignAll(rows)[rows[i].key] == JsString(rows[i].value)
    {
      AssignAllLastWins(rows, i);
    }
  }

  /** The item produced for one group. */
  function GroupJson(group: KeyValueGroup): TriggerReturnData {
    match group.testRun
    case None => TriggerReturnData(map[])
    case Some(rows) => TriggerReturnData(AssignAll(rows))
  }

  /** A group with rows yields an object keyed by exactly the rows' keys other
      than `__proto__`. */
  lemma GroupJsonKeys(group: KeyValueGroup)
    requires group.testRun.Some?
    ensures GroupJson(group).json.Keys == (set row | row in group.testRun.value :: row.key) - {ProtoKey}
  {
    var rows := group.testRun.value;
    AssignAllSpec(rows);
    forall k | k in GroupJson(group).json ensures k in (set row | row in rows :: row.key) - {ProtoKey} {
      var j :| 0 <= j < |rows| && rows[j].key == k;
      assert rows[j] in rows;
    }
    forall k | k in (set row | row in rows :: row.key) - {ProtoKey} ensures k in GroupJson(group).json {
      var row :| row in rows && row.key == k;
      var j :| 0 <= j < |rows| && rows[j] == row;
    }
  }

  /** `getReturnNodeJsonFromKeyValue`: nothing for undefined input, otherwise one
      item per group, in order. */
  function GetReturnNodeJsonFromKeyValue(raw: Option<seq<KeyValueGroup>>): (r: seq<TriggerReturnData>)
    ensures raw.None? ==> r == []
    ensures raw.Some? ==> |r| == |raw.value|
    ensures raw.Some? ==> forall i :: 0 <= i < |r| && raw.value[i].testRun.None? ==> r[i].json == map[]
    ensures raw.Some? ==> forall i :: 0 <= i < |r| && raw.value[i].testRun.Some? ==>
              r[i].json.Keys == (set row | row in raw.value[i].testRun.value :: row.key) - {ProtoKey}
    ensures raw.Some? ==> forall i, j ::
              (&& 0 <= i < |r| && raw.value[i].testRun.Some? && LastOfKey(raw.value[i].testRun.value, j)
               && raw.value[i].testRun.value[j].key != ProtoKey) ==>
              && raw.value[i].testRun.value[j].key in r[i].json
              && r[i].json[raw.value[i].testRun.value[j].key] == JsString(raw.value[i].testRun.value[j].value)
  {
    match raw
    case None => []
    case Some(groups) =>
      var r := seq(|groups|, i requires 0 <= i < |groups| => GroupJson(groups[i]));
      assert forall i :: 0 <= i < |r| && groups[i].testRun.Some? ==>
               r[i].json.Keys == (set row | row in groups[i].testRun.value :: row.key) - {ProtoKey} by {
        forall i | 0 <= i < |r| && groups[i].testRun.Some?
          ensures r[i].json.Keys == (set row | row in groups[i].testRun.value :: row.key) - {ProtoKey}
        {
          GroupJsonKeys(groups[i]);
        }
      }
      forall i, j | && 0 <= i < |r| && groups[i].testRun.Some? && LastOfKey(groups[i].testRun.value, j)
                    && groups[i].testRun.value[j].key != ProtoKey
        ensures && groups[i].testRun.value[j].key in r[i].json
                && r[i].json[groups[i].testRun.value[j].key] == JsString(groups[i].testRun.value[j].value)
      {
        AssignAllLastWins(groups[i].testRun.value, j);
      }
      r
  }

  /** The later of two rows with the same key decides that key's value, and
      the duplicate adds no second key. */
  lemma LaterDuplicateWins(rows: seq<KeyValue>, key: string, first: string, second: string)
    ensures key != ProtoKey ==> AssignAll(rows + [KeyValue(key, first), KeyValue(key, second)])[key] == JsString(second)
    ensures AssignAll(rows + [KeyValue(key, first), KeyValue(key, second)]).Keys
            == AssignAll(rows).Keys + ({key} - {ProtoKey})
  {
    var all := rows + [KeyValue(key, first), KeyValue(key, second)];
    assert all[..|all| - 1][..|all| - 2] == rows;
  }

  /** A row keyed `__proto__` adds nothing to the object, wherever it stands. */
  lemma {:induction false} ProtoRowIsIgnored(before: seq<KeyValue>, value: string, after: seq<KeyValue>)
    ensures AssignAll(before + [KeyValue(ProtoKey, value)] + after) == AssignAll(before + after)
    decreases |after|
  {
    if |after| == 0 {
      var all := before + [KeyValue(ProtoKey, value)];
      assert all + after == all;
      assert all[..|all| - 1] == before;
      assert before + after == before;
    } else {
      var init := after[..|after| - 1];
      ProtoRowIsIgnored(before, value, init);
      var all := before + [KeyValue(ProtoKey, value)] + after;
      assert all[..|all| - 1] == before + [KeyValue(ProtoKey, value)] + init;
      assert (before + after)[..|before + after| - 1] == before + init;
      assert all[|all| - 1] == (before + after)[|before + after| - 1];
    }
  }

  /** `rawJsonInputData.map(item => JSON.parse(item.jsonTestRun))`: each row parsed
      in order; the first row that fails to parse aborts the whole conversion. */
  function {:induction false} ParseAll(rows: seq<RawJsonInput>, parse: string -> Result<Obj, string>)
    : (r: Result<seq<TriggerReturnData>, string>)
    ensures r.Success? <==> forall i :: 0 <= i < |rows| ==> parse(rows[i].jsonTestRun).Success?
    ensures r.Success? ==> |r.value| == |rows|
    ensures r.Success? ==> forall i :: 0 <= i < |rows| ==>
              r.value[i].json == parse(rows[i].jsonTestRun).value
    ensures r.Failure? ==>
              exists i :: && 0 <= i < |rows| && parse(rows[i].jsonTestRun).Failure?
                          && (forall j :: 0 <= j < i ==> parse(rows[j].jsonTestRun).Success?)
                          && r.error == parse(rows[i].jsonTestRun).error
    decreases |rows|
  {
    if |rows| == 0 then Success([])
    else
      var head := parse(rows[0].jsonTestRun);
      if head.Failure? then Failure(head.error)
      else
        var tail := ParseAll(rows[1..], parse);
        assert forall i :: 1 <= i < |rows| ==> rows[1..][i - 1] == rows[i];
        if tail.Failure? then
          var k :| 0 <= k < |rows[1..]| && parse(rows[1..][k].jsonTestRun).Failure?
                   && (forall j :: 0 <= j < k ==> parse(rows[1..][j].jsonTestRun).Success?)
                   && tail.error == parse(rows[1..][k].jsonTestRun).error;
          assert parse(rows[k + 1].jsonTestRun).Failure?;
          Failure(tail.error)
        else
          Success([TriggerReturnData(head.value)] + tail.value)
  }

  /** `getReturnNodeJsonFromJson`, with `JSON.parse` as the given partial function
      `parse`: nothing for undefined input, otherwise `ParseAll`. */
  function GetReturnNodeJsonFromJson(raw: Option<seq<RawJsonInput>>, parse: string -> Result<Obj, string>)
    : (r: Result<seq<TriggerReturnData>, string>)
    ensures raw.None? ==> r == Success([])
    ensures raw.Some? ==> (r.Success? <==>
              forall i :: 0 <= i < |raw.value| ==> parse(raw.value[i].jsonTestRun).Success?)
    ensures raw.Some? && r.Success? ==> |r.value| == |raw.value|
    ensures raw.Some? && r.Success? ==> forall i :: 0 <= i < |raw.value| ==>
              r.value[i].json == parse(raw.value[i].jsonTestRun).value
    ensures raw.Some? && r.Failure? ==>
              exists i :: && 0 <= i < |raw.value| && parse(raw.value[i].jsonTestRun).Failure?
                          && (forall j :: 0 <= j < i ==> parse(raw.value[j].jsonTestRun).Success?)
                          && r.error == parse(raw.value[i].jsonTestRun).error
  {
    match raw
    case None => Success([])
    case Some(rows) => ParseAll(rows, parse)
  }

  /** The trigger's output: all key/value items, then all JSON items. */
  function TriggerOutput(keyValues: Option<seq<KeyValueGroup>>, json: Option<seq<RawJsonInput>>,
                         parse: string -> Result<Obj, string>): (r: Result<seq<TriggerReturnData>, string>)
    ensures r.Success? <==> GetReturnNodeJsonFromJson(json, parse).Success?
    ensures r.Success? ==>
              var kv := GetReturnNodeJsonFromKeyValue(keyValues);
              && |r.value| == |kv| + |GetReturnNodeJsonFromJson(json, parse).value|
              && r.value[..|kv|] == kv
              && r.value[|kv|..] == GetReturnNodeJsonFromJson(json, parse).value
  {
    var kv := GetReturnNodeJsonFromKeyValue(keyValues);
    var parsed :- GetReturnNodeJsonFromJson(json, parse);
    Success(kv + parsed)
  }
}

=== FILE: workflow.dfy ===
/** The workflow data the planner and the orchestrator read: nodes, prior run
    data, pinned data, and the graph accessor, which is taken as given. */
module Workflow {
  import opened Wrappers
  import opened Js

  /** Node type of the unit-test trigger node. */
  const UnitTestTriggerType: string := "n8n-nodes-base.unitTestTrigger"
  /** Node type of the unit-test evaluation node. */
  const UnitTestType: string := "n8n-nodes-base.unitTest"
  /** `getParentNodes(..., -1)`: ancestors at every depth. */
  const AllDepths: int := -1

  /** The node parameters the modelled code reads. */
  datatype Params = Params(
    operation: Option<JsValue>,
    testId: Option<JsValue>,
    additionalFields: Option<Obj>)

  /** A workflow node. `disabled` is absent on a node that was never toggled. */
  datatype Node = Node(
    name: string,
    nodeType: string,
    disabled: Option<bool>,
    parameters: Params)

  /** The error attached to a failed run of a node (an object, so always truthy). */
  datatype ExecutionError = ExecutionError(message: string)

  /** Provenance of one input of a run: which upstream output fed it. */
  datatype SourceData = SourceData(previousNode: string, previousNodeOutput: nat)

  /** One executed task of a node. */
  datatype TaskData = TaskData(error: Option<ExecutionError>, source: seq<Option<SourceData>>)

  /** Node name to its runs, in execution order; a missing key means "never ran". */
  type RunData = map<string, seq<TaskData>>

  /** Node name to the items pinned as its output. */
  type PinData = map<string, seq<Obj>>

  /** The workflow as the graph accessor presents it. `parentsOf(n, d)` and
      `childrenOf(n, d)` answer `getParentNodes`/`getChildNodes` on the main
      channel up to depth `d` (-1 for all depths); their implementation is not
      part of this model. `nodes` lists the nodes in the order the accessor returns them. */
  datatype Graph = Graph(
    nodes: seq<Node>,
    parentsOf: (string, int) -> seq<string>,
    childrenOf: (string, int) -> seq<string>)

  /** `workflow.nodes[name]`: the node called `name`, if there is one. */
  function FindNode(nodes: seq<Node>, name: string): (r: Option<Node>)
    ensures r.Some? ==> r.value in nodes && r.value.name == name
    ensures r.None? ==> forall i :: 0 <= i < |nodes| ==> nodes[i].name != name
  {
    if |nodes| == 0 then None
    else if nodes[0].name == name then Some(nodes[0])
    else FindNode(nodes[1..], name)
  }
}

=== FILE: wrappers.dfy ===
/** Failure-compatible wrappers: `Option` stands for a JavaScript value that may be
    `undefined` (or `null` where the source tests for it), `Result` for a call that
    either returns a value or throws. */
module Wrappers {

  datatype Option<+T> = None | Some(value: T) {

    /** The value, or `default` when there is none (the source's `x ?? default`). */
    function GetOr(default: T): T {
      match this
      case Some(v) => v
      case None => default
    }
  }

  datatype Result<+R, +E> = Success(value: R) | Failure(error: E) {

    predicate IsFailure() {
      Failure?
    }

    function PropagateFailure<U>(): Result<U, E>
      requires Failure?
    {
      Failure(error)
    }

    function Extract(): R
      requires Success?
    {
      value
    }
  }

  /** The list holding the value of `o`, or the empty list. */
  function OptionToSeq<T>(o: Option<T>): (s: seq<T>)
    ensures |s| <= 1
    ensures o.Some? <==> |s| == 1
    ensures o.Some? ==> s[0] == o.value
  {
    match o
    case Some(v) => [v]
    case None => []
  }
}
